=== FILE: README.md ===
# Marketplace Ads Tracker — a Dafny model of the listing profit core

Marketplace Ads Tracker is a small web application for sellers on a marketplace.
For each listing (*anúncio*) the seller types a sale price, a cost price, the
marketplace commission, the tax rate and the shipping cost. The application
works out the gross profit (*lucro bruto*) and the margin (*percentual de lucro*)
of each listing and keeps a summary of all of them. A second screen registers
products: name, weight, measures, cost, material, size, colours, and photos or
videos. The listing form offers those products through a picker.

This project models, in Dafny, the parts of the application with real behaviour:
- the number reading and profit arithmetic of `src/lib/utils.ts`;
- the listing collection and its summary in `src/App.jsx`;
- the two forms, `AdForm.jsx` and `ProductForm.jsx`;
- the media list of `FileUpload.jsx`;
- the product description and lookup of `ProductSelector.jsx`.

Each handler becomes a pure function from the component state (and the event's
data) to the new state. A handler's side effects become fields of its result:
the record handed to a callback and the alert shown.

Modules, in dependency order:

| file | module | what it holds |
|---|---|---|
| `wrappers.dfy` | `Wrappers` | `Option`, used for NaN and for "not found" |
| `text.dfy` | `Text` | JavaScript's `trim` (ECMAScript white space), `startsWith`, `join`, `replace` with a string pattern |
| `numbers.dfy` | `Numbers` | JavaScript's `parseFloat` as a character-by-character scanner; `parseFloat(x) \|\| 0`; the forms' "not a positive price" test |
| `seqs.dfy` | `Seqs` | `Array.prototype.filter` by value and by index |
| `ad_types.dfy` | `AdTypes` | the form text, the parsed inputs, the listing, the summary |
| `utils.dfy` | `Utils` | `parsePercentage`, `parseMarketplaceFee`, `calculateAdMetrics`, `calculateSummary`, `parseFormData` |
| `app.dfy` | `App` | adding and deleting listings, the summary |
| `ad_form.dfy` | `AdForm` | the listing form |
| `file_upload.dfy` | `FileUpload` | the accepted files, appending, removing, icons |
| `product_form.dfy` | `ProductForm` | the product form, its colour list, submit validation and the saved record |
| `product_selector.dfy` | `ProductSelector` | the product description, its subtitle, the lookup by id |

Numbers are Dafny `real`s. The source's IEEE-754 doubles are not modelled, so
every sum and product is exact. `parseFloat` returns `None` for NaN. The number
grammar it reads:
- leading white space, using ECMAScript's white-space set;
- an optional sign;
- `digits [. digits]` or `. digits`, read as far as they go.

Whatever follows is ignored. So `"12abc"` reads as 12 and `"1.5.3"` as 1.5.

`parseMarketplaceFee` reads every number at most 1 as a fraction of the sale
price (the comment at `src/lib/utils.ts:31` and the test `numValue <= 1` at
line 32), so zero and negative numbers are read that way too.

Two places where the code does something other than its own comments and types
suggest. The model follows the code:
- `parseFormData` stores the fee that `parseMarketplaceFee` returned, which is
  already an amount in money (`src/lib/utils.ts:90`). The type at
  `src/types/ad.d.ts:6` says the stored fee "can be a % (0.0-1.0) or a fixed value
  in R$", and `calculateAdMetrics` reads any stored value below 1 as a fraction
  (`src/lib/utils.ts:43-46`). So a fee amount below 1, in whichever spelling it
  was typed, is multiplied by the sale price a second time
  (`Utils.StoredFeeScaledAgain`). Fee text "0.005" on price "100" is read as
  0.5 and charged as 50 (`Utils.SmallFeeChargedTwice`). Fee text "2" (2 %) on
  price "10" is read as 0.2 and charged as 2 (`Utils.PointsFeeExample`).
- The two rules also disagree at exactly 1. `parseMarketplaceFee` reads 1 as
  "100 % of the price" (`<= 1`), while `calculateAdMetrics` reads a stored 1 as
  one unit of money (`< 1`) (`Utils.BoundaryAtOne`).

Both behaviours are kept as written and stated as lemmas.

## Model

| member | source | states |
|---|---|---|
| `Text.Trim` | src/lib/utils.ts:87 | the result is the input with its leading white space dropped and then only white space cut from the end; it neither starts nor ends with white space |
| `Text.StartsWith` | src/components/FileUpload.jsx:14-15 | a text starts with a prefix iff it is that prefix followed by some rest |
| `Text.TrimEmptyIff` | src/components/AdForm.jsx:30 | text trims to empty exactly when every character is white space (the `!x.trim()` test) |
| `Text.TrimIdempotent` | src/components/ProductForm.jsx:45-48 | trimming a trimmed colour changes nothing |
| `Text.TrimAfterSpace` | src/components/ProductSelector.jsx:127 | after one leading space, trimming keeps the first visible character in front |
| `Text.Join` | src/components/ProductSelector.jsx:77 | joining nothing gives ""; joining one item gives that item; otherwise the result starts with the first item |
| `Text.JoinSnoc` | src/components/ProductSelector.jsx:77 | joining one more item appends the separator and that item |
| `Text.JoinContains` | src/components/ProductSelector.jsx:77 | every item occurs in the joined text at its computed offset |
| `Text.IndexOfFrom` | src/components/ProductSelector.jsx:127 | the first position at or after the start where the pattern occurs, or none when it occurs nowhere |
| `Text.ReplaceFirst` | src/components/ProductSelector.jsx:127 | with no occurrence the text is unchanged; otherwise the text before the first occurrence is kept, then comes the replacement, then the text after the occurrence |
| `Text.ReplacePrefix` | src/components/ProductSelector.jsx:127 | replacing a prefix with "" removes exactly that prefix |
| `Numbers.ParseFloat` | src/lib/utils.ts:11 | the empty text is NaN |
| `Numbers.NotPositiveText` | src/components/AdForm.jsx:35 | empty text is refused; non-empty text that is not a number is let through (NaN is not at most 0); a number is refused iff it is at most 0 |
| `Numbers.ParseFloatOrZero` | src/lib/utils.ts:84 | NaN reads as 0 and every number read is kept |
| `Numbers.ParseFloatAllSpace` | src/lib/utils.ts:11-12 | text made only of white space is NaN |
| `Numbers.ParseFloatNat` | src/lib/utils.ts:11 | the decimal spelling of a whole number reads back as that number |
| `Numbers.ParseFloatDecimal` | src/lib/utils.ts:11 | "n.ds" reads back as n plus the fraction the digits ds stand for |
| `Numbers.ParseFloatZeroPoint` | src/lib/utils.ts:11 | "0.ds" reads back as the fraction the digits ds stand for |
| `Numbers.FractionOfTwoDigits` | src/lib/utils.ts:11 | two digits after the point stand for hundredths |
| `Numbers.ParseFloatIgnoresTrailingText` | src/lib/utils.ts:11 | leading blanks are skipped and text after the number is ignored ("  12abc" is 12) |
| `Numbers.ParseFloatStopsAtSecondPoint` | src/lib/utils.ts:11 | the reading stops at a second point ("1.5.3" is 1.5) |
| `Numbers.ParseFloatNegative` | src/lib/utils.ts:11 | "-5" is -5 |
| `Numbers.ParseFloatLeadingPoint` | src/lib/utils.ts:11 | ".5" is 0.5 |
| `Numbers.ParseFloatTrailingPoint` | src/lib/utils.ts:11 | "5." is 5 |
| `Numbers.ParseFloatNaN` | src/lib/utils.ts:12 | "abc" and "." are NaN |
| `Numbers.ParseFloatLoneSign` | src/lib/utils.ts:12 | "-" and "- 5" are NaN |
| `Numbers.ReadZero` | src/components/ProductForm.jsx:80 | "0" reads as 0 |
| `Numbers.ReadOne` | src/lib/utils.ts:11 | "1" reads as 1 |
| `Numbers.ReadTwo` | src/lib/utils.ts:23 | "2" reads as 2 |
| `Numbers.ReadTen` | src/lib/utils.ts:84 | "10" reads as 10 |
| `Numbers.ReadFifteen` | src/lib/utils.ts:11 | "15" reads as 15 |
| `Numbers.ReadHundred` | src/lib/utils.ts:11 | "100" reads as 100 |
| `Numbers.ReadHundredFifty` | src/lib/utils.ts:11 | "150" reads as 150 |
| `Numbers.ReadTenHundredths` | src/lib/utils.ts:11 | "0.10" reads as 0.1 |
| `Numbers.ReadFifteenHundredths` | src/lib/utils.ts:11 | "0.15" reads as 0.15 |
| `Numbers.ReadHalfPercent` | src/lib/utils.ts:11 | "0.005" reads as 0.005 |
| `Utils.PercentFromNumber` | src/lib/utils.ts:14-16 | above 1 the number is points (result times 100 is the number); at most 1 it is kept; the result is at most 1 exactly when the number is at most 100 |
| `Utils.ParsePercentage` | src/lib/utils.ts:8-17 | empty or non-numeric text gives 0; a number gives the rate that number stands for |
| `Utils.PercentSpellingsAgree` | src/lib/utils.ts:14-16 | a rate typed as points ("15") and as the matching fraction ("0.15") gives the same rate |
| `Utils.FeeFromNumber` | src/lib/utils.ts:26-37 | at most 1 the fee is that fraction of the price; above 1 up to 100 it is that many hundredths of the price; above 100 it is a flat amount |
| `Utils.ParseMarketplaceFee` | src/lib/utils.ts:20-38 | empty or non-numeric text gives 0; a number gives the fee it stands for against the sale price |
| `Utils.FeeOfNumber` | src/lib/utils.ts:20-38 | text that reads as n gives the fee n stands for |
| `Utils.FeeShareAtMostPrice` | src/lib/utils.ts:27-34 | a fee between 0 and 100 percent, in either spelling, lies between 0 and a non-negative price |
| `Utils.PointsAreHundredths` | src/lib/utils.ts:27-34 | points n and the fraction n/100 give the same fee |
| `Utils.FeeSpellingsAgree` | src/lib/utils.ts:27-34 | a fee typed as points and as the matching fraction charges the same amount |
| `Utils.TwoDigitSpellings` | src/lib/utils.ts:11 | a two-digit number and "0." before the same digits read as n and n/100 |
| `Utils.FeeAmount` | src/lib/utils.ts:43-46 | a stored fee below 1 is that fraction of the sale price; 1 and above is an amount of money |
| `Utils.CalculateAdMetrics` | src/lib/utils.ts:40-62 | the listing keeps the id and every input; profit plus cost, fee, tax and shipping equals the price; for a positive price the margin times the price is the profit; otherwise the margin is 0 |
| `Utils.Recompute` | src/lib/utils.ts:57-61 | re-applying the calculation to a listing keeps its id and inputs |
| `Utils.RecomputeIdempotent` | src/lib/utils.ts:40-62 | re-applying the calculation to a computed listing returns it unchanged |
| `Utils.ProfitFallsWithCost` | src/lib/utils.ts:52 | every unit of cost added takes exactly one unit off the profit |
| `Utils.SumOf` | src/lib/utils.ts:73-74 | no listings sum to 0 and one listing sums to its own figure; with `SumOfConcat` this fixes every sum |
| `Utils.SumOfConcat` | src/lib/utils.ts:73-74 | the sum over two runs of listings is the sum of the two sums |
| `Utils.CalculateSummary` | src/lib/utils.ts:64-81 | no listings give all zeros; the count is the number of listings; the total is the sum of the profits; the mean margin times the count is the sum of the margins |
| `Utils.SumOfBounds` | src/lib/utils.ts:73-74 | when each figure lies in [lo, hi], their sum lies in [lo·n, hi·n] |
| `Utils.MeanMarginBetween` | src/lib/utils.ts:74 | the mean margin lies between the smallest and largest margins |
| `Utils.SummaryExample` | src/lib/utils.ts:64-81 | profits 10 and -5 with margins 0.2 and -0.1 give total 5, mean 0.05, count 2 |
| `Utils.ParseFormData` | src/lib/utils.ts:83-94 | the name is trimmed; prices and shipping read with NaN as 0; the fee is read against the parsed sale price; the tax is read as a rate |
| `Utils.ParseFormDataWholeNumbers` | src/lib/utils.ts:83-94 | whole-number prices typed plainly, with fee and tax left empty, read back as those numbers with fee and tax 0 |
| `Utils.ChargedFee` | src/lib/utils.ts:44-46 | the fee `calculateAdMetrics` charges on the listing the form produces (utils.ts:84-92): below 1 the stored fee times the parsed sale price, otherwise the stored fee itself |
| `Utils.StoredFeeScaledAgain` | src/lib/utils.ts:44-46 | whatever the fee was typed as, when the amount the form produced is below 1 the listing charges that amount times the sale price |
| `Utils.FeeScaledTwice` | src/lib/utils.ts:32-33 | fee text reading as a fraction n ≤ 1 on a price reading as p, with n·p below 1, is charged n·p·p |
| `Utils.PointsFeeScaledTwice` | src/lib/utils.ts:27-28 | fee text reading as points n (1 < n ≤ 100) on a price reading as p, with n/100·p below 1, is charged n/100·p·p |
| `Utils.PointsFeeChargedTwice` | src/lib/utils.ts:44-46 | the arithmetic of that: points n read as n/100·p and then, being below 1, multiplied by p again |
| `Utils.PointsFeeExample` | src/lib/utils.ts:84-90 | fee "2" on price "10" is charged 2 instead of 0.2 |
| `Utils.FractionFeeChargedTwice` | src/lib/utils.ts:44-46 | the arithmetic of that: a fraction n read as n·p and then, being below 1, multiplied by p again |
| `Utils.SmallFeeRead` | src/lib/utils.ts:84-90 | a fee "0.005" on a price "100" is read as 0.5 |
| `Utils.HalfPercentOfHundred` | src/lib/utils.ts:32-33 | `parseMarketplaceFee("0.005", 100)` is 0.5 |
| `Utils.SmallFeeChargedTwice` | src/lib/utils.ts:44-46 | the listing then charges 0.5 × 100 = 50 instead of 0.5 |
| `Utils.BoundaryAtOne` | src/lib/utils.ts:32 | fee text "1" is the whole price, but a stored fee of 1 is charged as 1 unit of money |
| `Utils.PercentageExamples` | src/lib/utils.ts:8-17 | "" gives 0, "15" gives 0.15, "0.15" gives 0.15 |
| `Utils.FeeExamples` | src/lib/utils.ts:20-38 | at price 100: "0.15" and "15" charge 15, "150" charges 150 |
| `Utils.WorkedListingRates` | src/lib/utils.ts:20-38 | fee "0.15" at price 89.90 is 13.485; tax "0.10" is 0.1 |
| `Utils.WorkedListingMetrics` | src/lib/utils.ts:40-62 | price 89.90, cost 35, fee 13.485, tax 0.1, shipping 12.50 give profit 19.925 and margin 19.925/89.90 |
| `Seqs.Filter` | src/App.jsx:28 | the result is no longer than the input, holds only kept input elements, and holds every kept element |
| `Seqs.FilterConcat` | src/App.jsx:28 | filtering a concatenation filters each part |
| `Seqs.FilterKeepsAll` | src/App.jsx:28 | filtering with a test every element passes changes nothing |
| `Seqs.FilterNoDuplicates` | src/components/ProductForm.jsx:57 | filtering a list without repeats leaves no repeats |
| `Seqs.AppendNoDuplicates` | src/components/ProductForm.jsx:45-48 | appending an absent element keeps a list free of repeats |
| `Seqs.AllAppend` | src/components/ProductForm.jsx:48 | appending an element that passes a test to a list whose elements all pass it keeps that so |
| `Seqs.AllFilter` | src/components/ProductForm.jsx:57 | filtering keeps "every element passes the test" |
| `Seqs.DropIndex` | src/components/FileUpload.jsx:37 | dropping a position in range removes exactly that element; a position out of range changes nothing |
| `App.NewAd` | src/App.jsx:13-17 | the new listing carries the given id and the inputs parsed from the form, and its profit and margin are the ones computed from those inputs |
| `App.AddAd` | src/App.jsx:19 | adding appends exactly the new listing and keeps the others in order |
| `App.AddUpdatesSummary` | src/App.jsx:19-32 | after an add the count rises by one and the total by the new listing's profit |
| `App.DeleteAd` | src/App.jsx:26-30 | without confirmation nothing changes; with it no listing with that id remains, nothing new appears and every other listing stays |
| `App.DeleteAbsentId` | src/App.jsx:28 | deleting an id no listing carries changes nothing |
| `App.DeleteKeepsOrder` | src/App.jsx:28 | deleting works run by run, so the remaining listings keep their order |
| `App.Summary` | src/App.jsx:32 | no listings give all zeros; the summary counts every listing, totals their profits, and its mean margin times the count is the sum of the margins |
| `App.SumOfSplit` | src/App.jsx:28 | the sum over the listings splits into the sums over the kept and the removed ones |
| `App.DeleteUpdatesTotal` | src/App.jsx:28-32 | a confirmed delete lowers the total profit by exactly the profit of the removed listings |
| `AdForm.HandleChange` | src/components/AdForm.jsx:18-24 | the named field takes the typed value and every other field keeps its own |
| `AdForm.HandleSubmit` | src/components/AdForm.jsx:26-51 | a blank name is refused first, then an empty or non-positive price, each iff its condition holds; a refused form is unchanged; an accepted one hands on the text as typed and leaves every field empty |
| `AdForm.UnparseablePriceAccepted` | src/components/AdForm.jsx:35 | a price that is not a number passes validation, and the listing then has price 0 and margin 0 |
| `AdForm.SubmittedListingIsValid` | src/components/AdForm.jsx:30-40 | an accepted listing has a non-empty name, and a positive price unless its price text was not a number |
| `AdForm.SubmitAndAdd` | src/components/AdForm.jsx:40 | an accepted form adds exactly one listing built from its text; a refused one adds nothing |
| `FileUpload.Check` | src/components/FileUpload.jsx:14-28 | the type alert is raised iff the file is neither image nor video; the size alert iff it is one of them and over 10 MiB |
| `FileUpload.Accepted` | src/components/FileUpload.jsx:12-29 | a file is kept iff it is an image or a video of at most 10 MiB |
| `FileUpload.Alerts` | src/components/FileUpload.jsx:18-26 | each picked file is either kept or raises one alert, and every alert names a refused file with the reason that file was refused |
| `FileUpload.AlertOf` | src/components/FileUpload.jsx:18-26 | an accepted file raises no alert; a refused one raises one alert with its name and reason |
| `FileUpload.AlertsConcat` | src/components/FileUpload.jsx:12-29 | the alerts for two batches are those of the first followed by those of the second, so alerts come in the order picked |
| `FileUpload.AlertsOfOne` | src/components/FileUpload.jsx:18-26 | a single file raises exactly its own alert; with `AlertsConcat` this fixes every alert list |
| `FileUpload.HandleFiles` | src/components/FileUpload.jsx:11-34 | the list and the list handed to the form agree; the old files stay in front; everything appended is an accepted picked file; every accepted picked file is appended; the alerts raised are exactly `Alerts` of the picked files, one per refused file with its name and reason, in the order picked |
| `FileUpload.HandleFilesAppendsAccepted` | src/components/FileUpload.jsx:31 | picking two batches at once appends the same files as picking them one after the other |
| `FileUpload.RemoveFile` | src/components/FileUpload.jsx:36-40 | a position in range removes exactly that file and keeps the rest in order; one out of range removes nothing |
| `FileUpload.IconFor` | src/components/FileUpload.jsx:73-80 | the image icon iff the type is an image; the video icon iff a video and not an image |
| `FileUpload.AcceptedFileHasMediaIcon` | src/components/FileUpload.jsx:73-80 | every accepted file shows an image or a video icon |
| `FileUpload.SizeLimitIsInclusive` | src/components/FileUpload.jsx:16-26 | an image of exactly 10 MiB is kept; one byte more raises the size alert |
| `FileUpload.TypeCheckedFirst` | src/components/FileUpload.jsx:18-21 | a file of the wrong type is refused for its type whatever its size |
| `ProductForm.HandleChange` | src/components/ProductForm.jsx:29-42 | the named field, from an input or the size selector, takes the value; every other field, the colours, the files and the rest of the state stay |
| `ProductForm.SetNewCor` | src/components/ProductForm.jsx:258 | typing a colour changes only the pending colour |
| `ProductForm.CanAddCor` | src/components/ProductForm.jsx:45 | the pending colour is added iff it is not all white space and its trimmed text is not yet listed |
| `ProductForm.AddCor` | src/components/ProductForm.jsx:44-52 | a non-blank, new colour is appended trimmed and the input is cleared; otherwise nothing changes |
| `ProductForm.AddCorIdempotent` | src/components/ProductForm.jsx:44-52 | adding twice in a row is the same as adding once |
| `ProductForm.RemoveCor` | src/components/ProductForm.jsx:54-59 | the removed colour is gone, no colour appears, every other colour stays, nothing else changes |
| `ProductForm.RemoveCorKeepsOrder` | src/components/ProductForm.jsx:57 | removal works run by run: what is kept from the front of the list comes before what is kept from the back |
| `ProductForm.RemoveCorOneColor` | src/components/ProductForm.jsx:57 | a single colour is kept iff it is not the removed one; with `RemoveCorKeepsOrder` this fixes the result |
| `ProductForm.RemoveUndoesAdd` | src/components/ProductForm.jsx:44-59 | removing the colour just added restores the form |
| `ProductForm.HandleFilesChange` | src/components/ProductForm.jsx:61-66 | the upload area's list replaces the media list and nothing else changes |
| `ProductForm.BuildProductData` | src/components/ProductForm.jsx:86-95 | name, measures and material trimmed; weight and cost read with NaN as 0; size, colours and media passed on |
| `ProductForm.HandleSubmit` | src/components/ProductForm.jsx:68-97 | the form always becomes loading and is never cleared; a blank name, then an empty or non-positive cost, is refused, each iff its condition holds, leaving the validation message; otherwise the record is built and the saving message shown |
| `ProductForm.SavedProductIsValid` | src/components/ProductForm.jsx:75-95 | a saved record has a name; its cost is positive, or 0 when the cost text was not a number |
| `ProductForm.Apply` | src/components/ProductForm.jsx:29-66 | only the colour buttons change the colours; nothing clears the loading flag; a submit does nothing while loading (the button is disabled, line 340) or while the required name or cost is empty (lines 151, 304), and otherwise runs the handler |
| `ProductForm.Run` | src/components/ProductForm.jsx:29-68 | a loading form stays loading through any actions; actions without colour buttons leave the colours unchanged |
| `ProductForm.RefusedSubmitLocksForm` | src/components/ProductForm.jsx:75-83 | once the handler has refused the form, it stays loading whatever the user does, and every later submit is ignored |
| `ProductForm.BlankNameReachesRefusal` | src/components/ProductForm.jsx:151 | a name of white space only passes the browser's `required` check, is refused by the handler, and leaves the form loading |
| `ProductForm.ZeroCostReachesRefusal` | src/components/ProductForm.jsx:300 | a cost of "0" passes the browser's `min="0"` check, is refused by the handler, and leaves the form loading |
| `ProductForm.AppendKeepsColorsWellFormed` | src/components/ProductForm.jsx:48 | appending a trimmed, non-blank colour not yet listed keeps the list free of repeats, blanks and padding |
| `ProductForm.AddCorKeepsColorsWellFormed` | src/components/ProductForm.jsx:44-52 | adding the pending colour keeps the list free of repeats, blanks and padding |
| `ProductForm.RemoveCorKeepsColorsWellFormed` | src/components/ProductForm.jsx:54-59 | removing a colour keeps the list free of repeats, blanks and padding |
| `ProductForm.ApplyKeepsColorsWellFormed` | src/components/ProductForm.jsx:29-66 | every action keeps the colours free of repeats, blanks and padding |
| `ProductForm.RunKeepsColorsWellFormed` | src/components/ProductForm.jsx:29-66 | so does any sequence of actions |
| `ProductForm.FreshFormColorsWellFormed` | src/components/ProductForm.jsx:14-23 | starting from the empty form, no sequence of actions produces repeated, blank or padded colours |
| `ProductSelector.MaterialPart` | src/components/ProductSelector.jsx:79 | empty iff there is no material, else " • " followed by the material |
| `ProductSelector.TamanhoPart` | src/components/ProductSelector.jsx:80 | empty iff there is no size, else " • Tam. " followed by the size |
| `ProductSelector.CoresPart` | src/components/ProductSelector.jsx:76-78 | empty iff there are no colours, else " • " followed by the colours joined by ", " |
| `ProductSelector.DetailsLayout` | src/components/ProductSelector.jsx:82 | the material part comes first, the size part right after it, and the colour part last, ending the text |
| `ProductSelector.DetailsShowMaterial` | src/components/ProductSelector.jsx:79-82 | a material is shown right after the first bullet |
| `ProductSelector.DetailsShowSize` | src/components/ProductSelector.jsx:80-82 | a size is shown behind " • Tam. " right after the material part |
| `ProductSelector.Details` | src/components/ProductSelector.jsx:76-80 | the text after the name is empty iff there is no material, size or colour, and otherwise starts with " • " |
| `ProductSelector.FormatProductDisplay` | src/components/ProductSelector.jsx:75-83 | the display starts with the name and continues with the details; it is the name alone iff there are no details |
| `ProductSelector.CoresPartListsColor` | src/components/ProductSelector.jsx:76-78 | every colour occurs in the colour part, after the bullet |
| `ProductSelector.DisplayListsEveryColor` | src/components/ProductSelector.jsx:76-82 | every colour occurs in the display after the name, material and size |
| `ProductSelector.DisplayExample` | src/components/ProductSelector.jsx:75-83 | a product with a material, a size and two colours shows as name • material • Tam. size • colour, colour |
| `ProductSelector.Subtitle` | src/components/ProductSelector.jsx:127 | the subtitle is the trimmed details |
| `ProductSelector.SubtitleShape` | src/components/ProductSelector.jsx:127 | the subtitle is empty iff there are no details, and otherwise starts with the bullet |
| `ProductSelector.FindIndex` | src/components/ProductSelector.jsx:69 | the position of the first product with the id, or none when no product has it |
| `ProductSelector.HandleProductChange` | src/components/ProductSelector.jsx:68-73 | a product is handed on only to a listener, and it is the first product in the list with that id; nothing is handed on only without a listener or with an unknown id |
| `ProductSelector.ChosenProductIsUnique` | src/components/ProductSelector.jsx:68-73 | when ids are unique the product handed on is the one with that id |

## Left out

- `formatCurrency` and `formatPercentage` (`src/lib/utils.ts:96-109`): they use `Intl.NumberFormat`, which is locale data and display rounding outside this model.
- `generateId` (`src/lib/utils.ts:3-5`): it reads the clock and a random source, so callers pass the id as a parameter (`App.NewAd`, `App.AddAd`).
- IEEE-754 doubles: every number is an exact `real`, so no rounding, overflow, `Infinity` or negative zero exists in the model.
- `Numbers.ParseFloat`: it does not read exponents (`"1e3"`) or `"Infinity"`. JavaScript's `parseFloat` reads both; such text here stops at the `e` or is NaN.
- `ProductForm.HandleSubmit`: it stops where the source awaits the storage service. What follows is left out: the call to `productService.createProduct`, its demonstration fallback, the success messages, and the 1.5-second timer that calls `onProductSaved` and clears the loading flag. All of it is I/O, the clock or asynchronous. The outer `catch` is left out with it.
- `ProductForm.HandleSubmit`: a refused submit returns without clearing the loading flag. The model keeps that: the state stays loading with the validation message, and `ProductForm.RefusedSubmitLocksForm` shows that no later submit gets through.
- `ProductForm.Apply`, `AdForm.HandleSubmit` and `AdForm.UnparseablePriceAccepted`: of the browser's own checks, only `required` on the product form's name and cost is modelled. Not modelled:
  - the `min="0"`, `step` and `max="1"` limits on the number inputs;
  - the `type="number"` inputs turning text that is not a number into "";
  - the ad form's `required` fields (`AdForm.jsx:73, 88`).

  `AdForm.HandleSubmit` is the handler alone, as it behaves when called. Through the page, a price that is not a number arrives as "" and is stopped by `required`, so `AdForm.UnparseablePriceAccepted` describes the handler, not what a user can type. For the same reason, the fee "0.005" of `Utils.SmallFeeChargedTwice` fails the 0.01 step, and the tax "15" of `Utils.PercentageExamples` fails `max="1"`. The fee "2" on price "10" of `Utils.PointsFeeExample` can be typed into the form. A cost of "0" and a name of spaces pass the browser and reach the handler's refusal, which locks the product form (`ProductForm.ZeroCostReachesRefusal`, `ProductForm.BlankNameReachesRefusal`).
- `ProductForm.Apply`: after a successful submit the form stays loading, because the timer that clears the flag is not modelled. So the model cannot submit the same form a second time, which the application can once the timer fires.
- `Text.ReplaceFirst`: the `$&`, `` $` ``, `$'` and `$$` patterns in a replacement text are not interpreted. The only replacement used is "".
- `App.AddAd`: the `try`/`catch` around it has no counterpart, because none of the modelled steps can throw.
- `AdForm.HandleChange` and `ProductForm.HandleChange`: they accept only the form's own field names. The source's computed key `[name]` would also add any other property an element named.
- `FileUpload.HandleFiles`: the drop and file-input handlers call it only when at least one file arrives. Calling it with no files leaves the list as it is, so the guard is not modelled separately.
- The drag-highlight state and `openFileSelector` in `FileUpload.jsx`: they are presentation only.
- `formatFileSize` (`FileUpload.jsx:82-88`): it is display only and uses floating-point logarithms.
- Loading products in `ProductSelector.jsx` (`loadProducts`, lines 16-66), with its mock products and error state: this is storage I/O. The picker's product list is a parameter.
- `alert` and `window.confirm`: an alert becomes a value in the handler's result, and the confirmation answer becomes a `bool` parameter of `App.DeleteAd`.
- `src/lib/appwrite.js`, `productService.js` and `clientService.js`, the pages under `src/pages/`, `AdTable.jsx` and `KpiCard.jsx`: they are storage access or presentation, and are not part of this model.

=== FILE: ad_form.dfy ===
/** The listing form: editing one field, and the submit rule that validates the
    name and the sale price, hands the text on and clears the form. */
module AdForm {
  import opened Wrappers
  import opened Text
  import opened Numbers
  import opened AdTypes
  import opened Utils
  import App

  /** The names of the form's inputs. */
  datatype AdField = ProdutoAnuncio | PrecoVenda | PrecoCusto | TaxaMarketplace | AliquotaImposto | Frete

  function FieldValue(f: AdFormData, name: AdField): string {
    match name
    case ProdutoAnuncio => f.produtoAnuncio
    case PrecoVenda => f.precoVenda
    case PrecoCusto => f.precoCusto
    case TaxaMarketplace => f.taxaMarketplace
    case AliquotaImposto => f.aliquotaImposto
    case Frete => f.frete
  }

  const EmptyForm := AdFormData("", "", "", "", "", "")

  /** Typing into one input sets that field and no other. */
  function HandleChange(f: AdFormData, name: AdField, value: string): (r: AdFormData)
    ensures FieldValue(r, name) == value
    ensures forall other :: other != name ==> FieldValue(r, other) == FieldValue(f, other)
  {
    match name
    case ProdutoAnuncio => f.(produtoAnuncio := value)
    case PrecoVenda => f.(precoVenda := value)
    case PrecoCusto => f.(precoCusto := value)
    case TaxaMarketplace => f.(taxaMarketplace := value)
    case AliquotaImposto => f.(aliquotaImposto := value)
    case Frete => f.(frete := value)
  }

  /** The message the form shows when it refuses to submit. */
  datatype AdFormError = MissingProductName | InvalidSalePrice

  /** What a submit does: the form state afterwards, the data handed to the
      listing callback (if any) and the alert shown (if any). */
  datatype AdSubmit = AdSubmit(form: AdFormData, emitted: Option<AdFormData>, alert: Option<AdFormError>)

  /** The name is checked first, then the price; a refused submit changes nothing,
      an accepted one hands the text on exactly as typed and clears every field. */
  function HandleSubmit(f: AdFormData): (r: AdSubmit)
    ensures r.alert.None? <==> r.emitted.Some?
    ensures r.alert == Some(MissingProductName) <==> Trim(f.produtoAnuncio) == ""
    ensures r.alert == Some(InvalidSalePrice) <==> Trim(f.produtoAnuncio) != "" && NotPositiveText(f.precoVenda)
    ensures r.alert.Some? ==> r.form == f
    ensures r.emitted.Some? ==> r.emitted.value == f && r.form == EmptyForm
    ensures r.emitted.Some? ==> forall name :: FieldValue(r.form, name) == ""
  {
    if Trim(f.produtoAnuncio) == "" then AdSubmit(f, None, Some(MissingProductName))
    else if NotPositiveText(f.precoVenda) then AdSubmit(f, None, Some(InvalidSalePrice))
    else AdSubmit(EmptyForm, Some(f), None)
  }

  /** A price that is not a number passes validation, and the listing then has a
      sale price of 0 and a margin of 0. */
  lemma UnparseablePriceAccepted(f: AdFormData, id: string)
    requires Trim(f.produtoAnuncio) != ""
    requires f.precoVenda != "" && ParseFloat(f.precoVenda).None?
    ensures HandleSubmit(f).emitted == Some(f)
    ensures App.NewAd(id, f).precoVenda == 0.0 && App.NewAd(id, f).percentualLucro == 0.0
  {
  }

  /** A submitted listing has a name, and its sale price is positive unless the
      price text was not a number at all. */
  lemma SubmittedListingIsValid(f: AdFormData, id: string)
    requires HandleSubmit(f).emitted.Some?
    ensures App.NewAd(id, f).produtoAnuncio != ""
    ensures ParseFloat(f.precoVenda).Some? ==> App.NewAd(id, f).precoVenda > 0.0
  {
  }

  /** Submitting and then adding: an accepted form grows the collection by one
      listing built from the text, a refused one leaves it alone. */
  function SubmitAndAdd(ads: seq<Ad>, id: string, f: AdFormData): (r: seq<Ad>)
    ensures HandleSubmit(f).emitted.Some? ==> |r| == |ads| + 1 && r[..|ads|] == ads && r[|ads|] == App.NewAd(id, f)
    ensures HandleSubmit(f).emitted.None? ==> r == ads
  {
    match HandleSubmit(f).emitted
    case Some(data) => App.AddAd(ads, id, data)
    case None => ads
  }
}

=== FILE: ad_types.dfy ===
/** The record shapes of a marketplace listing: the raw form text, the parsed
    inputs, the computed listing and the portfolio summary. */
module AdTypes {

  /** What the listing form holds: six free-text fields. */
  datatype AdFormData = AdFormData(
    produtoAnuncio: string,
    precoVenda: string,
    precoCusto: string,
    taxaMarketplace: string,
    aliquotaImposto: string,
    frete: string)

  /** A listing's inputs after parsing, before an id and the metrics are added. */
  datatype AdDraft = AdDraft(
    produtoAnuncio: string,
    precoVenda: real,
    precoCusto: real,
    taxaMarketplace: real,   // a fraction of the sale price when below 1, else an amount
    aliquotaImposto: real,   // always a fraction of the sale price
    frete: real)

  /** A listing with its derived gross profit and margin. */
  datatype Ad = Ad(
    id: string,
    produtoAnuncio: string,
    precoVenda: real,
    precoCusto: real,
    taxaMarketplace: real,
    aliquotaImposto: real,
    frete: real,
    lucroBruto: real,
    percentualLucro: real)

  /** The input fields of a listing, without its id and derived metrics. */
  function Inputs(a: Ad): AdDraft {
    AdDraft(a.produtoAnuncio, a.precoVenda, a.precoCusto, a.taxaMarketplace, a.aliquotaImposto, a.frete)
  }

  datatype AdSummary = AdSummary(
    totalLucroBruto: real,
    mediaPercentualLucro: real,
    totalAnuncios: nat)
}

=== FILE: app.dfy ===
/** The listing collection the application holds: adding a listing from the form,
    deleting listings by id after confirmation, and the summary shown above them. */
module App {
  import opened Seqs
  import opened AdTypes
  import opened Utils

  /** The listing the form produces under the given id (the id generator, which uses
      the clock and a random source, is left to the caller). */
  function NewAd(id: string, form: AdFormData): (r: Ad)
    ensures r.id == id && Inputs(r) == ParseFormData(form)
    ensures Recompute(r) == r
  {
    CalculateAdMetrics(id, ParseFormData(form))
  }

  /** Adding a listing appends exactly one element and leaves the others in place. */
  function AddAd(ads: seq<Ad>, id: string, form: AdFormData): (r: seq<Ad>)
    ensures |r| == |ads| + 1
    ensures r[..|ads|] == ads
    ensures r[|ads|] == NewAd(id, form)
  {
    ads + [NewAd(id, form)]
  }

  function HasOtherId(id: string): Ad -> bool {
    (a: Ad) => a.id != id
  }

  function HasId(id: string): Ad -> bool {
    (a: Ad) => a.id == id
  }

  /** Deleting after the user confirms removes every listing with that id; without
      confirmation nothing changes. */
  function DeleteAd(ads: seq<Ad>, id: string, confirmed: bool): (r: seq<Ad>)
    ensures !confirmed ==> r == ads
    ensures confirmed ==> forall i :: 0 <= i < |r| ==> r[i].id != id
    ensures forall i :: 0 <= i < |r| ==> r[i] in ads
    ensures forall i :: 0 <= i < |ads| && ads[i].id != id ==> ads[i] in r
  {
    if confirmed then Filter(ads, HasOtherId(id)) else ads
  }

  /** Deleting an id no listing carries changes nothing. */
  lemma DeleteAbsentId(ads: seq<Ad>, id: string, confirmed: bool)
    requires forall i :: 0 <= i < |ads| ==> ads[i].id != id
    ensures DeleteAd(ads, id, confirmed) == ads
  {
    FilterKeepsAll(ads, HasOtherId(id));
  }

  /** Deleting works run by run, so the remaining listings keep their relative order. */
  lemma DeleteKeepsOrder(a: seq<Ad>, b: seq<Ad>, id: string, confirmed: bool)
    ensures DeleteAd(a + b, id, confirmed) == DeleteAd(a, id, confirmed) + DeleteAd(b, id, confirmed)
  {
    FilterConcat(a, b, HasOtherId(id));
  }

  /** The summary is recomputed from the whole collection each time. */
  function Summary(ads: seq<Ad>): (r: AdSummary)
    ensures |ads| == 0 ==> r == AdSummary(0.0, 0.0, 0)
    ensures r.totalAnuncios == |ads|
    ensures r.totalLucroBruto == SumOf(ads, LucroBruto)
    ensures r.mediaPercentualLucro * (|ads| as real) == SumOf(ads, PercentualLucro)
  {
    CalculateSummary(ads)
  }

  /** After an add the count rises by one and the total profit by the new listing's. */
  lemma AddUpdatesSummary(ads: seq<Ad>, id: string, form: AdFormData)
    ensures Summary(AddAd(ads, id, form)).totalAnuncios == Summary(ads).totalAnuncios + 1
    ensures Summary(AddAd(ads, id, form)).totalLucroBruto
            == Summary(ads).totalLucroBruto + NewAd(id, form).lucroBruto
  {
    var r := AddAd(ads, id, form);
    assert r[..|r| - 1] == ads;
  }

  lemma {:induction false} SumOfSplit(ads: seq<Ad>, keep: Ad -> bool, drop: Ad -> bool, m: Measure)
    requires forall a :: drop(a) == !keep(a)
    ensures SumOf(ads, m) == SumOf(Filter(ads, keep), m) + SumOf(Filter(ads, drop), m)
  {
    if |ads| > 0 {
      var x := ads[0];
      var rest := ads[1..];
      assert ads == [x] + rest;
      SumOfSplit(rest, keep, drop, m);
      SumOfConcat([x], rest, m);
      assert SumOf([x], m) == MeasureOf(x, m) by {
        assert [x][..0] == [];
      }
      if keep(x) {
        SumOfConcat([x], Filter(rest, keep), m);
        assert Filter(rest, drop) == Filter(ads, drop);
      } else {
        SumOfConcat([x], Filter(rest, drop), m);
        assert Filter(rest, keep) == Filter(ads, keep);
      }
    }
  }

  /** A confirmed delete lowers the total profit by exactly the profit of the
      listings it removed. */
  lemma DeleteUpdatesTotal(ads: seq<Ad>, id: string)
    ensures Summary(DeleteAd(ads, id, true)).totalLucroBruto
            + SumOf(Filter(ads, HasId(id)), LucroBruto) == Summary(ads).totalLucroBruto
  {
    SumOfSplit(ads, HasOtherId(id), HasId(id), LucroBruto);
  }
}

=== FILE: file_upload.dfy ===
/** The media list of the product form: which files are accepted, appending the
    accepted ones, removing one by position, and the icon shown for each. */
module FileUpload {
  import opened Wrappers
  import opened Text
  import opened Seqs

  /** A picked file as the browser describes it: name, MIME type and size in bytes. */
  datatype FileInfo = FileInfo(name: string, mimeType: string, size: nat)

  /** 10 MiB, the largest file accepted. */
  const MaxFileSize: nat := 10 * 1024 * 1024

  predicate IsImage(f: FileInfo) {
    StartsWith(f.mimeType, "image/")
  }

  predicate IsVideo(f: FileInfo) {
    StartsWith(f.mimeType, "video/")
  }

  /** Why a file was refused; the type is checked before the size. */
  datatype FileRejection = NotImageOrVideo | TooLarge

  datatype FileAlert = FileAlert(fileName: string, reason: FileRejection)

  /** The alert a file raises, if any. */
  function Check(f: FileInfo): (r: Option<FileRejection>)
    ensures r == Some(NotImageOrVideo) <==> !IsImage(f) && !IsVideo(f)
    ensures r == Some(TooLarge) <==> (IsImage(f) || IsVideo(f)) && f.size > MaxFileSize
  {
    if !IsImage(f) && !IsVideo(f) then Some(NotImageOrVideo)
    else if f.size > MaxFileSize then Some(TooLarge)
    else None
  }

  /** A file is kept exactly when it is an image or a video of at most 10 MiB. */
  predicate Accepted(f: FileInfo)
    ensures Accepted(f) <==> (IsImage(f) || IsVideo(f)) && f.size <= MaxFileSize
  {
    Check(f).None?
  }

  /** Alert `a` is the one file `f` raises: `f` is refused, and `a` names it and the reason. */
  predicate RaisedBy(a: FileAlert, f: FileInfo) {
    Check(f).Some? && a == FileAlert(f.name, Check(f).value)
  }

  /** Alert `a` is raised by one of `files`. */
  predicate RaisedByOneOf(a: FileAlert, files: seq<FileInfo>) {
    exists f :: f in files && RaisedBy(a, f)
  }

  /** One alert per refused file, in the order the files were picked. */
  function Alerts(files: seq<FileInfo>): (r: seq<FileAlert>)
    ensures |r| + |Filter(files, Accepted)| == |files|
    ensures forall i :: 0 <= i < |r| ==> RaisedByOneOf(r[i], files)
  {
    if |files| == 0 then []
    else
      var head, rest := AlertOf(files[0]), Alerts(files[1..]);
      assert forall i :: 0 <= i < |head| ==> RaisedBy(head[i], files[0]);
      AlertsFromFiles(files, head, rest, head + rest);
      head + rest
  }

  /** The step of `Alerts`: the first file's alert and the rest's alerts all come
      from files of the whole batch. */
  lemma AlertsFromFiles(files: seq<FileInfo>, head: seq<FileAlert>, rest: seq<FileAlert>, r: seq<FileAlert>)
    requires |files| > 0 && r == head + rest
    requires forall i :: 0 <= i < |head| ==> RaisedBy(head[i], files[0])
    requires forall i :: 0 <= i < |rest| ==> RaisedByOneOf(rest[i], files[1..])
    ensures forall i :: 0 <= i < |r| ==> RaisedByOneOf(r[i], files)
  {
    forall i | 0 <= i < |r|
      ensures RaisedByOneOf(r[i], files)
    {
      if i < |head| {
        assert r[i] == head[i];
        assert files[0] in files && RaisedBy(r[i], files[0]);
      } else {
        assert r[i] == rest[i - |head|];
        var f :| f in files[1..] && RaisedBy(rest[i - |head|], f);
        assert f in files;
      }
    }
  }

  /** The alert one file raises: none when it is accepted, else one naming the file
      and the reason it was refused. */
  function AlertOf(f: FileInfo): (r: seq<FileAlert>)
    ensures Check(f).None? ==> r == []
    ensures Check(f).Some? ==> |r| == 1 && RaisedBy(r[0], f)
  {
    match Check(f)
    case Some(reason) => [FileAlert(f.name, reason)]
    case None => []
  }

  /** The alerts for two batches are those of the first followed by those of the
      second, so the alerts come in the order the files were picked. */
  lemma {:induction false} AlertsConcat(a: seq<FileInfo>, b: seq<FileInfo>)
    ensures Alerts(a + b) == Alerts(a) + Alerts(b)
  {
    if |a| == 0 {
      assert a + b == b;
    } else {
      assert (a + b)[1..] == a[1..] + b;
      AlertsConcat(a[1..], b);
    }
  }

  /** A single file raises exactly its own alert. */
  lemma AlertsOfOne(f: FileInfo)
    ensures Alerts([f]) == AlertOf(f)
  {
    assert [f][1..] == [];
  }

  /** A change of the list: the list kept by the component, the list handed to the
      form, and the alerts raised. */
  datatype FileListChange = FileListChange(stored: seq<FileInfo>, notified: seq<FileInfo>, alerts: seq<FileAlert>)

  /** New files are filtered and the accepted ones appended, in the order picked;
      every refused file raises its own alert. */
  function HandleFiles(files: seq<FileInfo>, picked: seq<FileInfo>): (r: FileListChange)
    ensures r.notified == r.stored
    ensures |r.stored| >= |files| && r.stored[..|files|] == files
    ensures forall i :: |files| <= i < |r.stored| ==> Accepted(r.stored[i]) && r.stored[i] in picked
    ensures forall i :: 0 <= i < |picked| && Accepted(picked[i]) ==> picked[i] in r.stored[|files|..]
    ensures |r.stored| - |files| + |r.alerts| == |picked|
    ensures r.alerts == Alerts(picked)
  {
    var kept := files + Filter(picked, Accepted);
    assert kept[|files|..] == Filter(picked, Accepted);
    FileListChange(kept, kept, Alerts(picked))
  }

  /** The appended part is exactly the accepted files, in the order picked. */
  lemma HandleFilesAppendsAccepted(files: seq<FileInfo>, a: seq<FileInfo>, b: seq<FileInfo>)
    ensures HandleFiles(files, a + b).stored == HandleFiles(HandleFiles(files, a).stored, b).stored
  {
    var fa, fb := Filter(a, Accepted), Filter(b, Accepted);
    FilterConcat(a, b, Accepted);
    calc {
      HandleFiles(files, a + b).stored;
      files + Filter(a + b, Accepted);
      files + (fa + fb);
      { assert files + (fa + fb) == (files + fa) + fb; }
      (files + fa) + fb;
      HandleFiles(files + fa, b).stored;
    }
  }

  /** Removing a file drops exactly the one at that position; a position outside the
      list drops nothing. */
  function RemoveFile(files: seq<FileInfo>, index: int): (r: FileListChange)
    ensures r.notified == r.stored && r.alerts == []
    ensures 0 <= index < |files| ==> |r.stored| == |files| - 1
    ensures 0 <= index < |files| ==> forall k :: 0 <= k < index ==> r.stored[k] == files[k]
    ensures 0 <= index < |files| ==> forall k :: index <= k < |r.stored| ==> r.stored[k] == files[k + 1]
    ensures !(0 <= index < |files|) ==> r.stored == files
  {
    var kept := DropIndex(files, index);
    FileListChange(kept, kept, [])
  }

  /** The icon shown beside a file. */
  datatype FileIcon = ImageIcon | VideoIcon | OtherIcon

  function IconFor(f: FileInfo): (r: FileIcon)
    ensures r == ImageIcon <==> IsImage(f)
    ensures r == VideoIcon <==> !IsImage(f) && IsVideo(f)
  {
    if IsImage(f) then ImageIcon else if IsVideo(f) then VideoIcon else OtherIcon
  }

  /** Every file the list accepts shows an image or a video icon. */
  lemma AcceptedFileHasMediaIcon(f: FileInfo)
    requires Accepted(f)
    ensures IconFor(f) != OtherIcon
  {
  }

  /** A file of exactly 10 MiB is accepted, one byte more is not. */
  lemma SizeLimitIsInclusive(name: string, mimeType: string)
    requires StartsWith(mimeType, "image/")
    ensures Accepted(FileInfo(name, mimeType, 10485760))
    ensures Check(FileInfo(name, mimeType, 10485761)) == Some(TooLarge)
  {
  }

  /** A large file of the wrong type is refused for its type, not its size. */
  lemma TypeCheckedFirst(f: FileInfo)
    requires !IsImage(f) && !IsVideo(f)
    ensures Check(f) == Some(NotImageOrVideo)
  {
  }
}

=== FILE: numbers.dfy ===
/** A model of JavaScript's `parseFloat` over decimal text, and the `x || 0` idiom
    that turns its NaN into zero. Numbers are `real`: no IEEE-754 rounding. */
module Numbers {
  import opened Wrappers
  import opened Text

  predicate IsDigit(c: char) {
    '0' <= c <= '9'
  }

  predicate AllDigits(s: string) {
    forall i :: 0 <= i < |s| ==> IsDigit(s[i])
  }

  function DigitValue(c: char): (d: nat)
    requires IsDigit(c)
    ensures d < 10
  {
    c as int - '0' as int
  }

  function DigitChar(d: nat): (c: char)
    requires d < 10
    ensures IsDigit(c) && DigitValue(c) == d
  {
    ('0' as int + d) as char
  }

  /** The value of a string of decimal digits, most significant first. */
  function DigitsValue(ds: string): nat
    requires AllDigits(ds)
  {
    if |ds| == 0 then 0 else DigitsValue(ds[..|ds| - 1]) * 10 + DigitValue(ds[|ds| - 1])
  }

  function Pow10(n: nat): (r: nat)
    ensures r >= 1
  {
    if n == 0 then 1 else 10 * Pow10(n - 1)
  }

  lemma {:induction false} DigitsValueBound(ds: string)
    requires AllDigits(ds)
    ensures DigitsValue(ds) < Pow10(|ds|)
  {
    if |ds| > 0 {
      DigitsValueBound(ds[..|ds| - 1]);
    }
  }

  lemma RatioBelowOne(a: real, b: real)
    requires 0.0 <= a < b
    ensures 0.0 <= a / b < 1.0
  {
    assert a / b * b == a;
  }

  /** The value of the digits after a decimal point: `ds` read as 0.ds. */
  function FractionValue(ds: string): (r: real)
    requires AllDigits(ds)
    ensures 0.0 <= r < 1.0
  {
    DigitsValueBound(ds);
    RatioBelowOne(DigitsValue(ds) as real, Pow10(|ds|) as real);
    DigitsValue(ds) as real / Pow10(|ds|) as real
  }

  function Signed(negative: bool, v: real): real {
    if negative then -v else v
  }

  /** Where the scan of a number stands: still in the leading white space, just after
      a sign, in the whole part, or after the decimal point (with the fraction digits
      read so far as a numerator over 10^places). */
  datatype ScanState =
    | Blank
    | Sign(negative: bool)
    | Whole(negative: bool, whole: nat)
    | Point(negative: bool, whole: nat, hasWhole: bool, fraction: nat, places: nat)

  /** The state after reading `c`, or None when `c` cannot continue the number. */
  function Step(st: ScanState, c: char): Option<ScanState> {
    match st
    case Blank =>
      if IsSpace(c) then Some(Blank)
      else if c == '-' then Some(Sign(true))
      else if c == '+' then Some(Sign(false))
      else if IsDigit(c) then Some(Whole(false, DigitValue(c)))
      else if c == '.' then Some(Point(false, 0, false, 0, 0))
      else None
    case Sign(neg) =>
      if IsDigit(c) then Some(Whole(neg, DigitValue(c)))
      else if c == '.' then Some(Point(neg, 0, false, 0, 0))
      else None
    case Whole(neg, w) =>
      if IsDigit(c) then Some(Whole(neg, w * 10 + DigitValue(c)))
      else if c == '.' then Some(Point(neg, w, true, 0, 0))
      else None
    case Point(neg, w, h, f, p) =>
      if IsDigit(c) then Some(Point(neg, w, h, f * 10 + DigitValue(c), p + 1))
      else None
  }

  /** The number read when the scan stops in `st`; None (NaN) when no digit was read. */
  function Stop(st: ScanState): Option<real> {
    match st
    case Blank => None
    case Sign(_) => None
    case Whole(neg, w) => Some(Signed(neg, w as real))
    case Point(neg, w, h, f, p) =>
      if h || p > 0 then Some(Signed(neg, w as real + f as real / Pow10(p) as real)) else None
  }

  /** Reads `s` from position `i` in state `st` until a character cannot continue it. */
  function Scan(s: string, i: nat, st: ScanState): Option<real>
    requires i <= |s|
    decreases |s| - i
  {
    if i == |s| then Stop(st)
    else match Step(st, s[i])
      case None => Stop(st)
      case Some(next) => Scan(s, i + 1, next)
  }

  /** JavaScript's `parseFloat`: leading white space is skipped, then an optional sign
      and a decimal `digits [. digits]` or `. digits` are read as far as they go, and
      the rest of the text is ignored; `None` stands for NaN. Exponents and "Infinity"
      are not part of this grammar. */
  function ParseFloat(s: string): (r: Option<real>)
    ensures s == "" ==> r.None?
  {
    Scan(s, 0, Blank)
  }

  /** The forms' price check: empty text, or text that reads as a number at most 0.
      Text that is not a number passes, as NaN is not at most 0. */
  function NotPositiveText(text: string): (r: bool)
    ensures text == "" ==> r
    ensures text != "" && ParseFloat(text).None? ==> !r
    ensures ParseFloat(text).Some? ==> (r <==> ParseFloat(text).value <= 0.0)
  {
    text == "" || (ParseFloat(text).Some? && ParseFloat(text).value <= 0.0)
  }

  /** `parseFloat(s) || 0`: NaN (and zero) become zero, every other number is kept. */
  function ParseFloatOrZero(s: string): (r: real)
    ensures ParseFloat(s).None? ==> r == 0.0
    ensures ParseFloat(s).Some? ==> r == ParseFloat(s).value
  {
    ParseFloat(s).GetOr(0.0)
  }

  /** Text made only of white space is NaN. */
  lemma {:induction false} ScanBlank(s: string, i: nat)
    requires i <= |s|
    requires forall k :: i <= k < |s| ==> IsSpace(s[k])
    ensures Scan(s, i, Blank) == None
    decreases |s| - i
  {
    if i < |s| {
      ScanBlank(s, i + 1);
    }
  }

  lemma ParseFloatAllSpace(s: string)
    requires AllSpace(s)
    ensures ParseFloat(s) == None
  {
    ScanBlank(s, 0);
  }

  lemma ShiftDigit(w: nat, scale: nat, v: nat, d: nat)
    ensures (w * scale + v) * 10 + d == w * (10 * scale) + (v * 10 + d)
  {
  }

  /** The digits of `s[i..j]` as a value, peeling off the last one. */
  lemma DigitsValueLast(s: string, i: nat, j: nat)
    requires i < j <= |s| && AllDigits(s[i..j])
    ensures AllDigits(s[i..j - 1]) && IsDigit(s[j - 1])
    ensures DigitsValue(s[i..j]) == DigitsValue(s[i..j - 1]) * 10 + DigitValue(s[j - 1])
  {
    assert s[i..j][..j - i - 1] == s[i..j - 1];
    assert s[i..j][j - i - 1] == s[j - 1];
  }

  /** One digit read in the whole part. */
  lemma ScanWholeStep(s: string, j: nat, neg: bool, acc: nat)
    requires 0 < j <= |s| && IsDigit(s[j - 1])
    ensures Scan(s, j - 1, Whole(neg, acc)) == Scan(s, j, Whole(neg, acc * 10 + DigitValue(s[j - 1])))
  {
  }

  /** One digit read after the point. */
  lemma ScanPointStep(s: string, j: nat, neg: bool, w: nat, h: bool, f: nat, p: nat)
    requires 0 < j <= |s| && IsDigit(s[j - 1])
    ensures Scan(s, j - 1, Point(neg, w, h, f, p)) == Scan(s, j, Point(neg, w, h, f * 10 + DigitValue(s[j - 1]), p + 1))
  {
  }

  /** Shifting an accumulator by one more place. */
  lemma ShiftAccumulator(w: nat, n: nat, v: nat, d: nat)
    ensures (w * Pow10(n) + v) * 10 + d == w * Pow10(n + 1) + (v * 10 + d)
  {
    ShiftDigit(w, Pow10(n), v, d);
  }

  /** Reading a run of digits in the whole part shifts them into the accumulator. */
  lemma {:induction false} ScanWholeDigits(s: string, i: nat, j: nat, neg: bool, w: nat)
    requires i <= j <= |s| && AllDigits(s[i..j])
    ensures Scan(s, i, Whole(neg, w)) == Scan(s, j, Whole(neg, w * Pow10(j - i) + DigitsValue(s[i..j])))
    decreases j - i
  {
    if i < j {
      DigitsValueLast(s, i, j);
      var k, v, d := j - 1 - i, DigitsValue(s[i..j - 1]), DigitValue(s[j - 1]);
      var mid := w * Pow10(k) + v;
      ScanWholeDigits(s, i, j - 1, neg, w);
      ScanWholeStep(s, j, neg, mid);
      ShiftAccumulator(w, k, v, d);
      assert mid * 10 + d == w * Pow10(j - i) + DigitsValue(s[i..j]);
    }
  }

  /** Reading a run of digits after the point shifts them into the fraction. */
  lemma {:induction false} ScanPointDigits(s: string, i: nat, j: nat, neg: bool, w: nat, h: bool, f: nat, p: nat)
    requires i <= j <= |s| && AllDigits(s[i..j])
    ensures Scan(s, i, Point(neg, w, h, f, p))
            == Scan(s, j, Point(neg, w, h, f * Pow10(j - i) + DigitsValue(s[i..j]), p + (j - i)))
    decreases j - i
  {
    if i < j {
      DigitsValueLast(s, i, j);
      var k, v, d := j - 1 - i, DigitsValue(s[i..j - 1]), DigitValue(s[j - 1]);
      var mid := f * Pow10(k) + v;
      ScanPointDigits(s, i, j - 1, neg, w, h, f, p);
      ScanPointStep(s, j, neg, w, h, mid, p + k);
      ShiftAccumulator(f, k, v, d);
      assert mid * 10 + d == f * Pow10(j - i) + DigitsValue(s[i..j]);
    }
  }

  /** The decimal text of a natural number, without leading zeros. */
  function NatToString(n: nat): (r: string)
    ensures |r| > 0 && AllDigits(r)
  {
    if n < 10 then [DigitChar(n)] else NatToString(n / 10) + [DigitChar(n % 10)]
  }

  lemma {:induction false} NatToStringValue(n: nat)
    ensures DigitsValue(NatToString(n)) == n
  {
    var r := NatToString(n);
    if n >= 10 {
      NatToStringValue(n / 10);
      assert r[..|r| - 1] == NatToString(n / 10);
    }
  }

  /** Scanning digits from the start reads their value into the whole part. */
  lemma ScanLeadingDigits(s: string, j: nat)
    requires 0 < j <= |s| && AllDigits(s[..j])
    ensures Scan(s, 0, Blank) == Scan(s, j, Whole(false, DigitsValue(s[..j])))
  {
    assert s[0] == s[..j][0];
    assert Step(Blank, s[0]) == Step(Whole(false, 0), s[0]);
    assert Scan(s, 0, Blank) == Scan(s, 0, Whole(false, 0));
    assert s[0..j] == s[..j];
    ScanWholeDigits(s, 0, j, false, 0);
  }

  /** Reading back the text of a whole number gives that number. */
  lemma ParseFloatNat(n: nat)
    ensures ParseFloat(NatToString(n)) == Some(n as real)
  {
    var s := NatToString(n);
    assert s[..|s|] == s;
    ScanLeadingDigits(s, |s|);
    NatToStringValue(n);
  }

  /** Reading back `whole.digits` gives the whole part plus the fraction. */
  lemma ParseFloatDecimal(n: nat, ds: string)
    requires AllDigits(ds)
    ensures ParseFloat(NatToString(n) + "." + ds) == Some(n as real + FractionValue(ds))
  {
    var w := NatToString(n);
    var s := w + "." + ds;
    assert s[..|w|] == w;
    ScanLeadingDigits(s, |w|);
    NatToStringValue(n);
    assert s[|w|] == '.';
    assert Scan(s, |w|, Whole(false, n)) == Scan(s, |w| + 1, Point(false, n, true, 0, 0));
    assert s[|w| + 1..|s|] == ds;
    ScanPointDigits(s, |w| + 1, |s|, false, n, true, 0, 0);
  }

  /** Reading back `0.digits` gives the fraction the digits spell. */
  lemma ParseFloatZeroPoint(ds: string)
    requires AllDigits(ds)
    ensures ParseFloat("0." + ds) == Some(FractionValue(ds))
  {
    ParseFloatDecimal(0, ds);
    assert NatToString(0) == "0";
    assert NatToString(0) + "." + ds == "0." + ds;
  }

  /** Two digits after the point are hundredths. */
  lemma FractionOfTwoDigits(p: nat)
    requires 10 <= p < 100
    ensures FractionValue(NatToString(p)) == p as real / 100.0
  {
    var ds := NatToString(p);
    NatToStringValue(p);
    assert ds == NatToString(p / 10) + [DigitChar(p % 10)];
    assert Pow10(|ds|) == 100;
  }

  /** The reading stops at the first character that cannot continue the number, so
      trailing text is ignored. */
  lemma ParseFloatIgnoresTrailingText()
    ensures ParseFloat("  12abc") == Some(12.0)
  {
  }

  lemma ParseFloatStopsAtSecondPoint()
    ensures ParseFloat("1.5.3") == Some(1.5)
  {
  }

  /** A sign, a bare point before digits and a point after digits are all accepted. */
  lemma ParseFloatNegative()
    ensures ParseFloat("-5") == Some(-5.0)
  {
  }

  lemma ParseFloatLeadingPoint()
    ensures ParseFloat(".5") == Some(0.5)
  {
  }

  lemma ParseFloatTrailingPoint()
    ensures ParseFloat("5.") == Some(5.0)
  {
  }

  /** Text that does not start with a digit, after the sign and the point, is NaN. */
  lemma ParseFloatNaN()
    ensures ParseFloat("abc") == None
    ensures ParseFloat(".") == None
  {
  }

  lemma ParseFloatLoneSign()
    ensures ParseFloat("-") == None
    ensures ParseFloat("- 5") == None
  {
  }

  // ---------------------------------------------------------------- readings of literal figures

  lemma ReadZero()
    ensures ParseFloat("0") == Some(0.0)
  {
  }

  lemma ReadOne()
    ensures ParseFloat("1") == Some(1.0)
  {
  }

  lemma ReadTwo()
    ensures ParseFloat("2") == Some(2.0)
  {
  }

  lemma ReadTen()
    ensures ParseFloat("10") == Some(10.0)
  {
  }

  lemma ReadFifteen()
    ensures ParseFloat("15") == Some(15.0)
  {
  }

  lemma ReadHundred()
    ensures ParseFloat("100") == Some(100.0)
  {
  }

  lemma ReadHundredFifty()
    ensures ParseFloat("150") == Some(150.0)
  {
  }

  lemma ReadTenHundredths()
    ensures ParseFloat("0.10") == Some(0.1)
  {
  }

  lemma ReadFifteenHundredths()
    ensures ParseFloat("0.15") == Some(0.15)
  {
  }

  lemma ReadHalfPercent()
    ensures ParseFloat("0.005") == Some(0.005)
  {
  }
}

=== FILE: product_form.dfy ===
/** The product registration form: editing its fields, the list of colours,
    the media list handed up by the upload area, and the submit rule that
    validates the name and the cost price and builds the record to save. */
module ProductForm {
  import opened Wrappers
  import opened Text
  import opened Numbers
  import opened Seqs
  import opened FileUpload

  /** The form's fields as typed; colours and media are lists. */
  datatype ProductFormData = ProductFormData(
    nome: string,
    peso: string,
    medidas: string,
    precoCusto: string,
    material: string,
    tamanho: string,
    cores: seq<string>,
    fotosVideos: seq<FileInfo>)

  /** The whole component state: the form, the colour being typed, the loading
      flag that disables the submit button, and the progress message. */
  datatype ProductFormState = ProductFormState(
    form: ProductFormData,
    newCor: string,
    isLoading: bool,
    uploadProgress: string)

  const EmptyProductForm := ProductFormData("", "", "", "", "", "", [], [])
  const InitialState := ProductFormState(EmptyProductForm, "", false, "")

  const ValidatingMessage := "Validando dados..."
  const SavingMessage := "Salvando produto..."

  /** The text fields; `tamanho` is set from the size selector, the others from inputs. */
  datatype ProductField = Nome | Peso | Medidas | PrecoCusto | Material | Tamanho

  function FieldValue(f: ProductFormData, name: ProductField): string {
    match name
    case Nome => f.nome
    case Peso => f.peso
    case Medidas => f.medidas
    case PrecoCusto => f.precoCusto
    case Material => f.material
    case Tamanho => f.tamanho
  }

  /** An input or the size selector sets its field; no other field, colour or file changes. */
  function HandleChange(st: ProductFormState, name: ProductField, value: string): (r: ProductFormState)
    ensures FieldValue(r.form, name) == value
    ensures forall other :: other != name ==> FieldValue(r.form, other) == FieldValue(st.form, other)
    ensures r.form.cores == st.form.cores && r.form.fotosVideos == st.form.fotosVideos
    ensures r.newCor == st.newCor && r.isLoading == st.isLoading && r.uploadProgress == st.uploadProgress
  {
    var f := st.form;
    var g := match name
      case Nome => f.(nome := value)
      case Peso => f.(peso := value)
      case Medidas => f.(medidas := value)
      case PrecoCusto => f.(precoCusto := value)
      case Material => f.(material := value)
      case Tamanho => f.(tamanho := value);
    st.(form := g)
  }

  /** Typing in the colour input changes only the pending colour. */
  function SetNewCor(st: ProductFormState, value: string): (r: ProductFormState)
    ensures r.newCor == value && r.form == st.form
    ensures r.isLoading == st.isLoading && r.uploadProgress == st.uploadProgress
  {
    st.(newCor := value)
  }

  /** Whether the pending colour would be added: it is not blank once trimmed and
      is not already in the list. */
  function CanAddCor(st: ProductFormState): (r: bool)
    ensures r <==> !AllSpace(st.newCor) && Trim(st.newCor) !in st.form.cores
  {
    TrimEmptyIff(st.newCor);
    Trim(st.newCor) != "" && Trim(st.newCor) !in st.form.cores
  }

  /** Adding the pending colour appends its trimmed text and clears the input;
      a blank or repeated colour changes nothing, not even the input. */
  function AddCor(st: ProductFormState): (r: ProductFormState)
    ensures CanAddCor(st) ==> r.form.cores == st.form.cores + [Trim(st.newCor)] && r.newCor == ""
    ensures !CanAddCor(st) ==> r == st
    ensures r.form.(cores := st.form.cores) == st.form
    ensures r.isLoading == st.isLoading && r.uploadProgress == st.uploadProgress
  {
    var c := Trim(st.newCor);
    if c != "" && c !in st.form.cores then
      st.(form := st.form.(cores := st.form.cores + [c]), newCor := "")
    else st
  }

  /** The test `removeCor` filters the colours with. */
  function IsNot(cor: string): string -> bool {
    (c: string) => c != cor
  }

  /** Removing a colour drops every copy of it and keeps the others in order. */
  function RemoveCor(st: ProductFormState, cor: string): (r: ProductFormState)
    ensures cor !in r.form.cores
    ensures forall i :: 0 <= i < |r.form.cores| ==> r.form.cores[i] in st.form.cores
    ensures forall i :: 0 <= i < |st.form.cores| && st.form.cores[i] != cor ==> st.form.cores[i] in r.form.cores
    ensures r.form.(cores := st.form.cores) == st.form
    ensures r.newCor == st.newCor && r.isLoading == st.isLoading && r.uploadProgress == st.uploadProgress
  {
    st.(form := st.form.(cores := Filter(st.form.cores, IsNot(cor))))
  }

  /** Removing works run by run: the colours kept from the front of the list come
      before those kept from the back, so the order is kept. */
  lemma RemoveCorKeepsOrder(st: ProductFormState, a: seq<string>, b: seq<string>, cor: string)
    requires st.form.cores == a + b
    ensures RemoveCor(st, cor).form.cores == Filter(a, IsNot(cor)) + Filter(b, IsNot(cor))
  {
    FilterConcat(a, b, IsNot(cor));
  }

  /** On a single colour, removal keeps it exactly when it is another colour. */
  lemma RemoveCorOneColor(c: string, cor: string)
    ensures Filter([c], IsNot(cor)) == if c == cor then [] else [c]
  {
    FilterSingleton(c, IsNot(cor));
  }

  /** The upload area's list replaces the form's media list. */
  function HandleFilesChange(st: ProductFormState, files: seq<FileInfo>): (r: ProductFormState)
    ensures r.form.fotosVideos == files
    ensures r.form.(fotosVideos := st.form.fotosVideos) == st.form
    ensures r.newCor == st.newCor && r.isLoading == st.isLoading && r.uploadProgress == st.uploadProgress
  {
    st.(form := st.form.(fotosVideos := files))
  }

  /** The record prepared for saving. */
  datatype ProductData = ProductData(
    nome: string,
    peso: real,
    medidas: string,
    precoCusto: real,
    material: string,
    tamanho: string,
    cores: seq<string>,
    fotosVideos: seq<FileInfo>)

  /** Name, measures and material are trimmed; weight and cost read as numbers
      with NaN taken as 0; size, colours and media are passed on as they are. */
  function BuildProductData(f: ProductFormData): (r: ProductData)
    ensures r.nome == Trim(f.nome) && r.medidas == Trim(f.medidas) && r.material == Trim(f.material)
    ensures ParseFloat(f.peso).Some? ==> r.peso == ParseFloat(f.peso).value
    ensures ParseFloat(f.peso).None? ==> r.peso == 0.0
    ensures ParseFloat(f.precoCusto).Some? ==> r.precoCusto == ParseFloat(f.precoCusto).value
    ensures ParseFloat(f.precoCusto).None? ==> r.precoCusto == 0.0
    ensures r.tamanho == f.tamanho && r.cores == f.cores && r.fotosVideos == f.fotosVideos
  {
    ProductData(
      Trim(f.nome),
      ParseFloatOrZero(f.peso),
      Trim(f.medidas),
      ParseFloatOrZero(f.precoCusto),
      Trim(f.material),
      f.tamanho,
      f.cores,
      f.fotosVideos)
  }

  /** The message the form shows when it refuses to save. */
  datatype ProductFormError = MissingName | InvalidCostPrice

  /** What a submit does: the state afterwards, the record handed to the save
      step (if any) and the alert shown (if any). */
  datatype ProductSubmit = ProductSubmit(state: ProductFormState, saved: Option<ProductData>, alert: Option<ProductFormError>)

  /** The form switches to loading before it validates. A missing name is reported
      first, then a missing or non-positive cost; either refusal leaves the form
      loading with the validation message. A valid form yields the record and
      moves on to the saving message. The form itself is never cleared. */
  function HandleSubmit(st: ProductFormState): (r: ProductSubmit)
    ensures r.alert.None? <==> r.saved.Some?
    ensures r.alert == Some(MissingName) <==> Trim(st.form.nome) == ""
    ensures r.alert == Some(InvalidCostPrice) <==> Trim(st.form.nome) != "" && NotPositiveText(st.form.precoCusto)
    ensures r.state.isLoading && r.state.form == st.form && r.state.newCor == st.newCor
    ensures r.alert.Some? ==> r.state.uploadProgress == ValidatingMessage
    ensures r.saved.Some? ==> r.saved.value == BuildProductData(st.form) && r.state.uploadProgress == SavingMessage
  {
    var validating := st.(isLoading := true, uploadProgress := ValidatingMessage);
    if Trim(st.form.nome) == "" then ProductSubmit(validating, None, Some(MissingName))
    else if NotPositiveText(st.form.precoCusto) then ProductSubmit(validating, None, Some(InvalidCostPrice))
    else ProductSubmit(validating.(uploadProgress := SavingMessage), Some(BuildProductData(st.form)), None)
  }

  /** A saved record has a name, and its cost is positive unless the cost text was
      not a number at all, in which case the record carries a cost of 0. */
  lemma SavedProductIsValid(st: ProductFormState)
    requires HandleSubmit(st).saved.Some?
    ensures HandleSubmit(st).saved.value.nome != ""
    ensures ParseFloat(st.form.precoCusto).Some? ==> HandleSubmit(st).saved.value.precoCusto > 0.0
    ensures ParseFloat(st.form.precoCusto).None? ==> HandleSubmit(st).saved.value.precoCusto == 0.0
  {
  }

  /** Adding twice in a row adds at most once: the first add clears the input or
      changes nothing. */
  lemma AddCorIdempotent(st: ProductFormState)
    ensures AddCor(AddCor(st)) == AddCor(st)
  {
    if CanAddCor(st) {
      assert AddCor(st).newCor == "";
      assert Trim("") == "";
    }
  }

  /** Removing the colour just added restores the colour list. */
  lemma RemoveUndoesAdd(st: ProductFormState)
    requires CanAddCor(st)
    requires forall i :: 0 <= i < |st.form.cores| ==> st.form.cores[i] != Trim(st.newCor)
    ensures RemoveCor(AddCor(st), Trim(st.newCor)).form == st.form
  {
    var c := Trim(st.newCor);
    var keep := IsNot(c);
    FilterConcat(st.form.cores, [c], keep);
    FilterKeepsAll(st.form.cores, keep);
    FilterSingleton(c, keep);
  }

  /** The colour list is well formed: no repeats, and every colour is trimmed and not empty. */
  predicate ColorsWellFormed(cores: seq<string>) {
    NoDuplicates(cores) && All(cores, TrimmedColor)
  }

  /** A colour as the list stores it: not blank, and without surrounding white space. */
  predicate TrimmedColor(c: string) {
    c != "" && Trim(c) == c
  }

  /** The user's actions on the form. */
  datatype FormEvent =
    | Change(name: ProductField, value: string)
    | TypeCor(value: string)
    | AddColor
    | RemoveColor(cor: string)
    | FilesChanged(files: seq<FileInfo>)
    | Submit

  /** The browser's own check before the submit handler runs: the inputs marked
      `required`, the name and the cost, are not empty. */
  predicate RequiredFilled(f: ProductFormData) {
    f.nome != "" && f.precoCusto != ""
  }

  /** One action. Only the colour buttons touch the colours, and nothing clears
      the loading flag. While it is set the submit button is disabled, and while a
      required input is empty the browser refuses to submit; either way a submit
      does nothing. */
  function Apply(st: ProductFormState, e: FormEvent): (r: ProductFormState)
    ensures !e.AddColor? && !e.RemoveColor? ==> r.form.cores == st.form.cores
    ensures st.isLoading ==> r.isLoading
    ensures e.Submit? && (st.isLoading || !RequiredFilled(st.form)) ==> r == st
    ensures e.Submit? && !st.isLoading && RequiredFilled(st.form) ==> r == HandleSubmit(st).state
  {
    match e
    case Change(name, value) => HandleChange(st, name, value)
    case TypeCor(value) => SetNewCor(st, value)
    case AddColor => AddCor(st)
    case RemoveColor(cor) => RemoveCor(st, cor)
    case FilesChanged(files) => HandleFilesChange(st, files)
    case Submit => if st.isLoading || !RequiredFilled(st.form) then st else HandleSubmit(st).state
  }

  /** A sequence of actions, applied in order. */
  function Run(st: ProductFormState, events: seq<FormEvent>): (r: ProductFormState)
    decreases |events|
    ensures st.isLoading ==> r.isLoading
    ensures (forall i :: 0 <= i < |events| ==> !events[i].AddColor? && !events[i].RemoveColor?)
              ==> r.form.cores == st.form.cores
  {
    if |events| == 0 then st else Run(Apply(st, events[0]), events[1..])
  }

  /** Once the submit handler has refused the form, the form stays loading, so
      whatever the user does next, every later submit is ignored. */
  lemma RefusedSubmitLocksForm(st: ProductFormState, events: seq<FormEvent>)
    requires HandleSubmit(st).alert.Some?
    ensures var later := Run(HandleSubmit(st).state, events);
            later.isLoading && Apply(later, Submit) == later
  {
  }

  /** The browser lets a name made only of white space through, and the handler
      then refuses it: such a submit reaches the refusal and locks the form. */
  lemma BlankNameReachesRefusal(st: ProductFormState)
    requires !st.isLoading && st.form.nome != "" && AllSpace(st.form.nome) && st.form.precoCusto != ""
    ensures Apply(st, Submit) == HandleSubmit(st).state
    ensures HandleSubmit(st).alert == Some(MissingName) && Apply(st, Submit).isLoading
  {
    TrimEmptyIff(st.form.nome);
  }

  /** So does a cost of "0", which the `min="0"` input accepts. */
  lemma ZeroCostReachesRefusal(st: ProductFormState)
    requires !st.isLoading && Trim(st.form.nome) != "" && st.form.precoCusto == "0"
    ensures Apply(st, Submit) == HandleSubmit(st).state
    ensures HandleSubmit(st).alert == Some(InvalidCostPrice) && Apply(st, Submit).isLoading
  {
    ReadZero();
  }

  /** Appending a trimmed, non-blank colour not yet listed keeps the list well formed. */
  lemma AppendKeepsColorsWellFormed(cores: seq<string>, c: string)
    requires ColorsWellFormed(cores)
    requires TrimmedColor(c) && c !in cores
    ensures ColorsWellFormed(cores + [c])
  {
    AppendNoDuplicates(cores, c);
    AllAppend(cores, c, TrimmedColor);
  }

  /** Adding a colour keeps the list well formed: the new colour is trimmed, not
      blank and not yet in the list. */
  lemma AddCorKeepsColorsWellFormed(st: ProductFormState)
    requires ColorsWellFormed(st.form.cores)
    ensures ColorsWellFormed(AddCor(st).form.cores)
  {
    if CanAddCor(st) {
      TrimIdempotent(st.newCor);
      assert TrimmedColor(Trim(st.newCor));
      AppendKeepsColorsWellFormed(st.form.cores, Trim(st.newCor));
    }
  }

  /** Removing a colour keeps the list well formed. */
  lemma RemoveCorKeepsColorsWellFormed(st: ProductFormState, cor: string)
    requires ColorsWellFormed(st.form.cores)
    ensures ColorsWellFormed(RemoveCor(st, cor).form.cores)
  {
    FilterNoDuplicates(st.form.cores, IsNot(cor));
    AllFilter(st.form.cores, IsNot(cor), TrimmedColor);
  }

  /** Each action keeps the colour list well formed. */
  lemma ApplyKeepsColorsWellFormed(st: ProductFormState, e: FormEvent)
    requires ColorsWellFormed(st.form.cores)
    ensures ColorsWellFormed(Apply(st, e).form.cores)
  {
    match e
    case AddColor => AddCorKeepsColorsWellFormed(st);
    case RemoveColor(cor) => RemoveCorKeepsColorsWellFormed(st, cor);
    case _ =>
  }

  /** Whatever the user does from a fresh form, the colours never repeat and are
      never blank or padded. */
  lemma {:induction false} RunKeepsColorsWellFormed(st: ProductFormState, events: seq<FormEvent>)
    requires ColorsWellFormed(st.form.cores)
    ensures ColorsWellFormed(Run(st, events).form.cores)
    decreases |events|
  {
    if |events| > 0 {
      ApplyKeepsColorsWellFormed(st, events[0]);
      RunKeepsColorsWellFormed(Apply(st, events[0]), events[1..]);
    }
  }

  lemma FreshFormColorsWellFormed(events: seq<FormEvent>)
    ensures ColorsWellFormed(Run(InitialState, events).form.cores)
  {
    RunKeepsColorsWellFormed(InitialState, events);
  }
}

=== FILE: product_selector.dfy ===
/** The product picker of the listing form: the one-line description of a
    product, the subtitle shown under its name, and the lookup that hands the
    chosen product to the form. */
module ProductSelector {
  import opened Wrappers
  import opened Text

  /** A registered product as the picker receives it. */
  datatype Product = Product(
    id: string,
    nome: string,
    material: string,
    tamanho: string,
    cores: seq<string>,
    precoCusto: real,
    peso: real)

  const Bullet := " • "

  /** The material part: empty when there is no material, else the material
      behind a bullet. */
  function MaterialPart(p: Product): (r: string)
    ensures r == "" <==> p.material == ""
    ensures r != "" ==> StartsWith(r, Bullet) && r[|Bullet|..] == p.material
  {
    if p.material == "" then "" else Bullet + p.material
  }

  /** The size part: empty when there is no size, else the size behind a bullet
      and the "Tam. " label. */
  function TamanhoPart(p: Product): (r: string)
    ensures r == "" <==> p.tamanho == ""
    ensures r != "" ==> StartsWith(r, Bullet + "Tam. ") && r[|Bullet + "Tam. "|..] == p.tamanho
  {
    if p.tamanho == "" then "" else Bullet + "Tam. " + p.tamanho
  }

  /** The colour part: empty when the list is empty, else the colours joined by ", "
      behind a bullet. */
  function CoresPart(p: Product): (r: string)
    ensures r == "" <==> |p.cores| == 0
    ensures r != "" ==> StartsWith(r, Bullet) && r[|Bullet|..] == Join(p.cores, ", ")
  {
    if |p.cores| == 0 then "" else Bullet + Join(p.cores, ", ")
  }

  /** Whether the product has anything to show besides its name. */
  predicate HasDetails(p: Product) {
    p.material != "" || p.tamanho != "" || |p.cores| > 0
  }

  /** The text after the name: material, size, colours, each behind a bullet. */
  function Details(p: Product): (r: string)
    ensures r == "" <==> !HasDetails(p)
    ensures r != "" ==> StartsWith(r, Bullet)
  {
    var r := MaterialPart(p) + TamanhoPart(p) + CoresPart(p);
    assert r != "" ==> r[..|Bullet|] == Bullet;
    r
  }

  /** The details are laid out in a fixed order: the material part first, the size
      part right after it, and the colour part last, ending the text. */
  lemma DetailsLayout(p: Product)
    ensures OccursAt(Details(p), MaterialPart(p), 0)
    ensures OccursAt(Details(p), TamanhoPart(p), |MaterialPart(p)|)
    ensures OccursAt(Details(p), CoresPart(p), |MaterialPart(p)| + |TamanhoPart(p)|)
    ensures |Details(p)| == |MaterialPart(p)| + |TamanhoPart(p)| + |CoresPart(p)|
  {
    var m, t, c := MaterialPart(p), TamanhoPart(p), CoresPart(p);
    var d := Details(p);
    assert d == m + t + c;
    assert d[0..|m|] == m;
    assert d[|m|..|m| + |t|] == t;
    assert d[|m| + |t|..|m| + |t| + |c|] == c;
  }

  /** A non-empty material is shown right after the first bullet. */
  lemma DetailsShowMaterial(p: Product)
    requires p.material != ""
    ensures OccursAt(Details(p), Bullet + p.material, 0)
  {
    DetailsLayout(p);
  }

  /** A non-empty size is shown, behind " • Tam. ", right after the material part. */
  lemma DetailsShowSize(p: Product)
    requires p.tamanho != ""
    ensures OccursAt(Details(p), Bullet + "Tam. " + p.tamanho, |MaterialPart(p)|)
  {
    DetailsLayout(p);
  }

  /** The name followed by the details; the name alone when there are none. */
  function FormatProductDisplay(p: Product): (r: string)
    ensures StartsWith(r, p.nome) && r[|p.nome|..] == Details(p)
    ensures r == p.nome <==> !HasDetails(p)
  {
    var r := p.nome + Details(p);
    assert r[|p.nome|..] == Details(p);
    r
  }

  /** The subtitle under the name: the display with the name's first occurrence
      removed, then trimmed. */
  function Subtitle(p: Product): (r: string)
    ensures r == Trim(Details(p))
  {
    var display := FormatProductDisplay(p);
    ReplacePrefix(display, p.nome);
    Trim(ReplaceFirst(display, p.nome, ""))
  }

  lemma BulletMarkIsVisible()
    ensures !IsSpace('•')
  {
  }

  /** The subtitle is empty exactly when the product has no details, and otherwise
      opens with the bullet, its leading space trimmed away. */
  lemma SubtitleShape(p: Product)
    ensures Subtitle(p) == "" <==> !HasDetails(p)
    ensures HasDetails(p) ==> Subtitle(p)[0] == '•'
  {
    var d := Details(p);
    if HasDetails(p) {
      BulletMarkIsVisible();
      assert d[..|Bullet|] == Bullet;
      var rest := d[1..];
      assert rest[0] == d[1] == '•';
      assert d == " " + rest;
      TrimAfterSpace(rest);
    }
  }

  /** Every colour occurs in the colour part, after the bullet. */
  lemma CoresPartListsColor(p: Product, k: nat)
    requires k < |p.cores|
    ensures OccursAt(CoresPart(p), p.cores[k], |Bullet| + JoinOffset(p.cores, ", ", k))
  {
    JoinContains(p.cores, ", ", k);
    OccursAfterPrefix(Bullet, Join(p.cores, ", "), p.cores[k], JoinOffset(p.cores, ", ", k));
  }

  /** Every colour of the product is listed in the display, after the name, the
      material and the size. */
  lemma DisplayListsEveryColor(p: Product, k: nat)
    requires k < |p.cores|
    ensures OccursAt(FormatProductDisplay(p), p.cores[k],
                     |p.nome| + |MaterialPart(p)| + |TamanhoPart(p)| + |Bullet| + JoinOffset(p.cores, ", ", k))
  {
    var front := MaterialPart(p) + TamanhoPart(p);
    var off := |Bullet| + JoinOffset(p.cores, ", ", k);
    CoresPartListsColor(p, k);
    OccursAfterPrefix(front, CoresPart(p), p.cores[k], off);
    assert Details(p) == front + CoresPart(p);
    OccursAfterPrefix(p.nome, Details(p), p.cores[k], |front| + off);
  }

  /** `products.find` on the id: the position of the first product with that id. */
  function FindIndex(products: seq<Product>, id: string): (r: Option<nat>)
    ensures r.Some? ==> r.value < |products| && products[r.value].id == id
    ensures r.Some? ==> forall j :: 0 <= j < r.value ==> products[j].id != id
    ensures r.None? ==> forall j :: 0 <= j < |products| ==> products[j].id != id
  {
    if |products| == 0 then None
    else if products[0].id == id then Some(0)
    else match FindIndex(products[1..], id)
      case None => None
      case Some(i) => Some(i + 1)
  }

  /** Choosing an id hands the first product with that id to the form, provided
      the form listens; an unknown id hands nothing. */
  function HandleProductChange(products: seq<Product>, id: string, hasListener: bool): (r: Option<Product>)
    ensures r.Some? ==> hasListener && r.value in products && r.value.id == id
    ensures r.Some? ==> exists k :: 0 <= k < |products| && products[k] == r.value
                                     && forall j :: 0 <= j < k ==> products[j].id != id
    ensures r.None? ==> !hasListener || forall j :: 0 <= j < |products| ==> products[j].id != id
  {
    if !hasListener then None
    else match FindIndex(products, id)
      case None => None
      case Some(i) => Some(products[i])
  }

  /** When ids are unique the chosen product is the one with that id. */
  lemma ChosenProductIsUnique(products: seq<Product>, id: string, k: nat)
    requires k < |products| && products[k].id == id
    requires forall i, j :: 0 <= i < j < |products| ==> products[i].id != products[j].id
    ensures HandleProductChange(products, id, true) == Some(products[k])
  {
    if FindIndex(products, id).value != k {
      assert false;
    }
  }

  /** A product with a material, a size and two colours shows them in that order. */
  lemma DisplayExample(p: Product, c1: string, c2: string)
    requires p.material != "" && p.tamanho != "" && p.cores == [c1, c2]
    ensures FormatProductDisplay(p)
         == p.nome + " • " + p.material + " • Tam. " + p.tamanho + " • " + c1 + ", " + c2
  {
    assert Join(p.cores, ", ") == c1 + ", " + c2 by {
      assert p.cores[1..] == [c2];
    }
    SizeLabel();
    DisplayOfParts(p);
    Regroup(p.nome, " • ", p.material, " • Tam. ", p.tamanho, " • ", c1, ", ", c2);
  }

  lemma SizeLabel()
    ensures Bullet + "Tam. " == " • Tam. "
  {
  }

  lemma DisplayOfParts(p: Product)
    ensures FormatProductDisplay(p) == p.nome + (MaterialPart(p) + TamanhoPart(p) + CoresPart(p))
  {
  }

  lemma Regroup(n: string, a: string, b: string, c: string, d: string, e: string, f: string, g: string, h: string)
    ensures n + ((a + b) + (c + d) + (e + (f + g + h))) == n + a + b + c + d + e + f + g + h
  {
  }
}

=== FILE: seqs.dfy ===
/** Sequence operations the components use: `Array.prototype.filter` by value and
    by position, and the no-duplicates property. */
module Seqs {

  /** `s.filter(keep)`: the elements satisfying `keep`, in their original order. */
  function Filter<T>(s: seq<T>, keep: T -> bool): (r: seq<T>)
    ensures |r| <= |s|
    ensures forall i :: 0 <= i < |r| ==> r[i] in s && keep(r[i])
    ensures forall i :: 0 <= i < |s| && keep(s[i]) ==> s[i] in r
  {
    if |s| == 0 then [] else (if keep(s[0]) then [s[0]] else []) + Filter(s[1..], keep)
  }

  /** Filtering a concatenation filters each part and keeps them in order; with the
      one-element case this fixes the result completely, so order is preserved. */
  lemma {:induction false} FilterConcat<T>(a: seq<T>, b: seq<T>, keep: T -> bool)
    ensures Filter(a + b, keep) == Filter(a, keep) + Filter(b, keep)
  {
    if |a| > 0 {
      assert (a + b)[0] == a[0];
      assert (a + b)[1..] == a[1..] + b;
      FilterConcat(a[1..], b, keep);
    } else {
      assert a + b == b;
    }
  }

  lemma FilterSingleton<T>(x: T, keep: T -> bool)
    ensures Filter([x], keep) == if keep(x) then [x] else []
  {
    assert [x][1..] == [];
  }

  /** A filter that keeps every element changes nothing. */
  lemma {:induction false} FilterKeepsAll<T>(s: seq<T>, keep: T -> bool)
    requires forall i :: 0 <= i < |s| ==> keep(s[i])
    ensures Filter(s, keep) == s
  {
    if |s| > 0 {
      FilterKeepsAll(s[1..], keep);
    }
  }

  predicate NoDuplicates<T(==)>(s: seq<T>) {
    forall i, j :: 0 <= i < j < |s| ==> s[i] != s[j]
  }

  /** Filtering never introduces a duplicate. */
  lemma {:induction false} FilterNoDuplicates<T>(s: seq<T>, keep: T -> bool)
    requires NoDuplicates(s)
    ensures NoDuplicates(Filter(s, keep))
  {
    if |s| > 0 {
      assert NoDuplicates(s[1..]);
      FilterNoDuplicates(s[1..], keep);
      assert s[0] !in s[1..];
    }
  }

  /** Appending an element that is not yet present keeps a sequence duplicate-free. */
  lemma AppendNoDuplicates<T>(s: seq<T>, x: T)
    requires NoDuplicates(s) && x !in s
    ensures NoDuplicates(s + [x])
  {
  }

  /** `s.filter((_, index) => index !== i)`: drops the element at position `i`;
      an `i` outside the sequence drops nothing. */
  function DropIndex<T>(s: seq<T>, i: int): (r: seq<T>)
    ensures 0 <= i < |s| ==> r == s[..i] + s[i + 1..]
    ensures !(0 <= i < |s|) ==> r == s
  {
    if |s| == 0 then [] else (if i == 0 then [] else [s[0]]) + DropIndex(s[1..], i - 1)
  }

  /** Every element passes the test. */
  predicate All<T>(s: seq<T>, p: T -> bool) {
    forall i :: 0 <= i < |s| ==> p(s[i])
  }

  lemma AllAppend<T>(s: seq<T>, x: T, p: T -> bool)
    requires All(s, p) && p(x)
    ensures All(s + [x], p)
  {
    forall i | 0 <= i < |s + [x]|
      ensures p((s + [x])[i])
    {
      if i < |s| {
        assert (s + [x])[i] == s[i];
      }
    }
  }

  lemma AllFilter<T>(s: seq<T>, keep: T -> bool, p: T -> bool)
    requires All(s, p)
    ensures All(Filter(s, keep), p)
  {
  }
}

=== FILE: text.dfy ===
/** String helpers with the meaning JavaScript gives them: `trim`, `startsWith`,
    `join`, and `replace` with a string pattern. */
module Text {
  import opened Wrappers

  /** The characters JavaScript's `trim` and `parseFloat` treat as white space:
      the WhiteSpace and LineTerminator code points of ECMAScript. */
  const SpaceChars: set<char> := {
    '\t', '\n', '\U{000B}', '\U{000C}', '\r', ' ', '\U{00A0}', '\U{1680}',
    '\U{2000}', '\U{2001}', '\U{2002}', '\U{2003}', '\U{2004}', '\U{2005}',
    '\U{2006}', '\U{2007}', '\U{2008}', '\U{2009}', '\U{200A}',
    '\U{2028}', '\U{2029}', '\U{202F}', '\U{205F}', '\U{3000}', '\U{FEFF}'
  }

  predicate IsSpace(c: char) {
    c in SpaceChars
  }

  predicate AllSpace(s: string) {
    forall i :: 0 <= i < |s| ==> IsSpace(s[i])
  }

  /** Drops the leading white space: the result is the suffix of `s` that starts
      at its first non-space character. */
  function TrimStart(s: string): (r: string)
    ensures |r| <= |s| && r == s[|s| - |r|..]
    ensures forall i :: 0 <= i < |s| - |r| ==> IsSpace(s[i])
    ensures |r| > 0 ==> !IsSpace(r[0])
  {
    if |s| > 0 && IsSpace(s[0]) then TrimStart(s[1..]) else s
  }

  /** Drops the trailing white space: the result is the prefix of `s` that ends
      at its last non-space character. */
  function TrimEnd(s: string): (r: string)
    ensures |r| <= |s| && r == s[..|r|]
    ensures forall i :: |r| <= i < |s| ==> IsSpace(s[i])
    ensures |r| > 0 ==> !IsSpace(r[|r| - 1])
  {
    if |s| > 0 && IsSpace(s[|s| - 1]) then TrimEnd(s[..|s| - 1]) else s
  }

  /** JavaScript's `String.prototype.trim`. */
  function Trim(s: string): (r: string)
    ensures |r| <= |s|
    ensures |r| <= |TrimStart(s)| && r == TrimStart(s)[..|r|]
    ensures forall i :: |r| <= i < |TrimStart(s)| ==> IsSpace(TrimStart(s)[i])
    ensures |r| > 0 ==> !IsSpace(r[0]) && !IsSpace(r[|r| - 1])
  {
    TrimEnd(TrimStart(s))
  }

  /** A string trims to empty exactly when every character in it is white space. */
  lemma TrimEmptyIff(s: string)
    ensures Trim(s) == "" <==> AllSpace(s)
  {
    var a := TrimStart(s);
    if Trim(s) == "" {
      if |a| > 0 {
        assert false;
      }
      assert s[..|s|] == s;
    } else if AllSpace(s) {
      assert false;
    }
  }

  lemma TrimStartOfTrimmed(s: string)
    requires |s| == 0 || !IsSpace(s[0])
    ensures TrimStart(s) == s
  {
  }

  lemma TrimEndOfTrimmed(s: string)
    requires |s| == 0 || !IsSpace(s[|s| - 1])
    ensures TrimEnd(s) == s
  {
  }

  /** Trimming twice is the same as trimming once. */
  lemma TrimIdempotent(s: string)
    ensures Trim(Trim(s)) == Trim(s)
  {
    var t := Trim(s);
    TrimStartOfTrimmed(t);
    TrimEndOfTrimmed(t);
  }

  /** One space before a visible character: trimming keeps that character first. */
  lemma TrimAfterSpace(t: string)
    requires |t| > 0 && !IsSpace(t[0])
    ensures |Trim(" " + t)| > 0 && Trim(" " + t)[0] == t[0]
  {
    assert (" " + t)[1..] == t;
    TrimStartOfTrimmed(t);
    assert TrimStart(" " + t) == t;
    if |TrimEnd(t)| == 0 {
      assert false;
    }
  }

  /** JavaScript's `startsWith`: `s` is `prefix` followed by some rest. */
  function StartsWith(s: string, prefix: string): (r: bool)
    ensures r <==> |prefix| <= |s| && s == prefix + s[|prefix|..]
  {
    |prefix| <= |s| && s[..|prefix|] == prefix
  }

  /** JavaScript's `Array.prototype.join`: the items with `sep` between neighbours. */
  function Join(items: seq<string>, sep: string): (r: string)
    ensures |items| == 0 ==> r == ""
    ensures |items| == 1 ==> r == items[0]
    ensures |items| > 0 ==> StartsWith(r, items[0])
  {
    if |items| == 0 then ""
    else if |items| == 1 then items[0]
    else items[0] + sep + Join(items[1..], sep)
  }

  /** Adding one more item puts the separator and that item at the end. */
  lemma {:induction false} JoinSnoc(items: seq<string>, x: string, sep: string)
    requires |items| > 0
    ensures Join(items + [x], sep) == Join(items, sep) + sep + x
  {
    if |items| == 1 {
      assert (items + [x])[1..] == [x];
    } else {
      assert (items + [x])[1..] == items[1..] + [x];
      JoinSnoc(items[1..], x, sep);
    }
  }

  predicate OccursAt(s: string, pat: string, i: nat) {
    i + |pat| <= |s| && s[i..i + |pat|] == pat
  }

  /** An occurrence stays an occurrence when text is put in front, shifted by its length. */
  lemma OccursAfterPrefix(a: string, t: string, pat: string, i: nat)
    requires OccursAt(t, pat, i)
    ensures OccursAt(a + t, pat, |a| + i)
  {
    assert (a + t)[|a| + i..|a| + i + |pat|] == t[i..i + |pat|];
  }

  /** Where the `k`th item starts in `Join(items, sep)`. */
  function JoinOffset(items: seq<string>, sep: string, k: nat): nat
    requires k < |items|
  {
    if k == 0 then 0 else |items[0]| + |sep| + JoinOffset(items[1..], sep, k - 1)
  }

  /** Every item appears in the joined text, at its offset. */
  lemma {:induction false} JoinContains(items: seq<string>, sep: string, k: nat)
    requires k < |items|
    ensures OccursAt(Join(items, sep), items[k], JoinOffset(items, sep, k))
  {
    if k == 0 {
      assert Join(items, sep)[..|items[0]|] == items[0];
    } else {
      JoinContains(items[1..], sep, k - 1);
      OccursAfterPrefix(items[0] + sep, Join(items[1..], sep), items[k], JoinOffset(items[1..], sep, k - 1));
    }
  }

  /** The first position at or after `from` where `pat` occurs in `s`. */
  function IndexOfFrom(s: string, pat: string, from: nat): (r: Option<nat>)
    decreases |s| - from
    ensures r.Some? ==> from <= r.value && OccursAt(s, pat, r.value)
    ensures r.Some? ==> forall j :: from <= j < r.value ==> !OccursAt(s, pat, j)
    ensures r.None? ==> forall j :: from <= j ==> !OccursAt(s, pat, j)
  {
    if from + |pat| > |s| then None
    else if s[from..from + |pat|] == pat then Some(from)
    else IndexOfFrom(s, pat, from + 1)
  }

  /** JavaScript's `s.replace(pat, rep)` with a string pattern and a replacement
      without `$` patterns (the only use here replaces with ""): only the first
      occurrence is replaced, and `s` is returned as is when there is none. */
  function ReplaceFirst(s: string, pat: string, rep: string): (r: string)
    ensures IndexOfFrom(s, pat, 0).None? ==> r == s
    ensures IndexOfFrom(s, pat, 0).Some? ==> |r| == |s| - |pat| + |rep|
    ensures IndexOfFrom(s, pat, 0).Some? ==> StartsWith(r, s[..IndexOfFrom(s, pat, 0).value] + rep)
    ensures IndexOfFrom(s, pat, 0).Some? ==>
              r[IndexOfFrom(s, pat, 0).value + |rep|..] == s[IndexOfFrom(s, pat, 0).value + |pat|..]
  {
    match IndexOfFrom(s, pat, 0)
    case None => s
    case Some(i) => s[..i] + rep + s[i + |pat|..]
  }

  /** When `s` starts with `pat`, replacing the first occurrence by "" removes that prefix. */
  lemma ReplacePrefix(s: string, pat: string)
    requires StartsWith(s, pat)
    ensures ReplaceFirst(s, pat, "") == s[|pat|..]
  {
    assert OccursAt(s, pat, 0);
    assert IndexOfFrom(s, pat, 0) == Some(0);
  }
}

=== FILE: utils.dfy ===
/** The listing profit engine: reading percentages and marketplace fees from text,
    the per-listing gross profit and margin, and the portfolio summary. */
module Utils {
  import opened Wrappers
  import opened Text
  import opened Numbers
  import opened AdTypes

  // ---------------------------------------------------------------- input normalisation

  /** The fraction a typed rate number stands for: above 1 it is percentage points
      and is divided by 100; at most 1 (negatives included) it is already a fraction. */
  function PercentFromNumber(n: real): (r: real)
    ensures n > 1.0 ==> r * 100.0 == n
    ensures n <= 1.0 ==> r == n
    ensures r <= 1.0 <==> n <= 100.0
  {
    if n > 1.0 then n / 100.0 else n
  }

  /** A tax rate typed either as points ("15") or as a fraction ("0.15"); text that
      is empty or not a number reads as 0. */
  function ParsePercentage(value: string): (r: real)
    ensures ParseFloat(value).None? ==> r == 0.0
    ensures ParseFloat(value).Some? ==> r == PercentFromNumber(ParseFloat(value).value)
  {
    if value == "" then 0.0
    else match ParseFloat(value)
      case None => 0.0
      case Some(n) => PercentFromNumber(n)
  }

  /** The amount a typed fee number stands for: at most 1 is a fraction of the sale
      price (zero and negatives included), above 1 and at most 100 is percentage
      points, above 100 is a flat amount. */
  function FeeFromNumber(n: real, salePrice: real): (r: real)
    ensures n <= 1.0 ==> r == n * salePrice
    ensures 1.0 < n <= 100.0 ==> r * 100.0 == n * salePrice
    ensures n > 100.0 ==> r == n
  {
    if n > 1.0 && n <= 100.0 then (n / 100.0) * salePrice
    else if n <= 1.0 then n * salePrice
    else n
  }

  /** A marketplace fee read from text as an amount of money; text that is empty or
      not a number reads as 0. */
  function ParseMarketplaceFee(value: string, salePrice: real): (r: real)
    ensures ParseFloat(value).None? ==> r == 0.0
    ensures ParseFloat(value).Some? ==> r == FeeFromNumber(ParseFloat(value).value, salePrice)
  {
    if value == "" then 0.0
    else match ParseFloat(value)
      case None => 0.0
      case Some(n) => FeeFromNumber(n, salePrice)
  }

  lemma ProductNonNegative(a: real, b: real)
    requires a >= 0.0 && b >= 0.0
    ensures a * b >= 0.0
  {
  }

  /** Read as a share of the price (0 to 100 percent, in either spelling), a fee never
      exceeds a non-negative sale price. */
  lemma FeeShareAtMostPrice(n: real, salePrice: real)
    requires salePrice >= 0.0 && 0.0 <= n <= 100.0
    ensures 0.0 <= FeeFromNumber(n, salePrice) <= salePrice
  {
    var q := if n > 1.0 then n / 100.0 else n;
    assert FeeFromNumber(n, salePrice) == q * salePrice;
    ProductNonNegative(q, salePrice);
    ProductNonNegative(1.0 - q, salePrice);
  }

  /** A rate typed as points ("15") or as the matching fraction ("0.15") gives the
      same tax rate. */
  lemma PercentSpellingsAgree(points: string, fraction: string, n: real)
    requires 1.0 < n <= 100.0
    requires ParseFloat(points) == Some(n) && ParseFloat(fraction) == Some(n / 100.0)
    ensures ParsePercentage(points) == ParsePercentage(fraction) == n / 100.0
  {
  }

  /** A fee typed as points ("15") or as the matching fraction ("0.15") charges the
      same amount. */
  lemma FeeSpellingsAgree(points: string, fraction: string, n: real, salePrice: real)
    requires 1.0 < n <= 100.0
    requires ParseFloat(points) == Some(n) && ParseFloat(fraction) == Some(n / 100.0)
    ensures ParseMarketplaceFee(points, salePrice) == ParseMarketplaceFee(fraction, salePrice)
  {
    FeeOfNumber(points, n, salePrice);
    FeeOfNumber(fraction, n / 100.0, salePrice);
    PointsAreHundredths(n, salePrice);
  }

  /** Text that reads as a number charges the fee that number stands for. */
  lemma FeeOfNumber(value: string, n: real, salePrice: real)
    requires ParseFloat(value) == Some(n)
    ensures ParseMarketplaceFee(value, salePrice) == FeeFromNumber(n, salePrice)
  {
  }

  /** Two-digit points and "0." followed by the same digits read as n and n/100. */
  lemma TwoDigitSpellings(p: nat)
    requires 10 <= p < 100
    ensures ParseFloat(NatToString(p)) == Some(p as real)
    ensures ParseFloat("0." + NatToString(p)) == Some(p as real / 100.0)
  {
    ParseFloatNat(p);
    ParseFloatZeroPoint(NatToString(p));
    FractionOfTwoDigits(p);
  }

  /** Percentage points n and the fraction n/100 charge the same fee. */
  lemma PointsAreHundredths(n: real, salePrice: real)
    requires 1.0 < n <= 100.0
    ensures FeeFromNumber(n, salePrice) == FeeFromNumber(n / 100.0, salePrice)
  {
  }

  // ---------------------------------------------------------------- per-listing metrics

  /** The money charged by the marketplace as the metrics read the stored fee: a value
      below 1 is a fraction of the sale price, anything else is an amount. */
  function FeeAmount(taxaMarketplace: real, precoVenda: real): (r: real)
    ensures taxaMarketplace < 1.0 ==> r == taxaMarketplace * precoVenda
    ensures taxaMarketplace >= 1.0 ==> r == taxaMarketplace
  {
    if taxaMarketplace < 1.0 then taxaMarketplace * precoVenda else taxaMarketplace
  }

  /** The listing for `d` under `id`: every input is carried over, and the gross
      profit is what is left of the sale price after cost, fee, tax and shipping;
      the margin is that profit as a share of the price, or 0 when the price is not
      positive. */
  function CalculateAdMetrics(id: string, d: AdDraft): (r: Ad)
    ensures r.id == id && Inputs(r) == d
    ensures r.lucroBruto + d.precoCusto + FeeAmount(d.taxaMarketplace, d.precoVenda)
              + d.aliquotaImposto * d.precoVenda + d.frete == d.precoVenda
    ensures d.precoVenda > 0.0 ==> r.percentualLucro * d.precoVenda == r.lucroBruto
    ensures d.precoVenda <= 0.0 ==> r.percentualLucro == 0.0
  {
    var fee := FeeAmount(d.taxaMarketplace, d.precoVenda);
    var imposto := d.aliquotaImposto * d.precoVenda;
    var lucro := d.precoVenda - (d.precoCusto + fee + imposto + d.frete);
    var percentual := if d.precoVenda > 0.0 then lucro / d.precoVenda else 0.0;
    Ad(id, d.produtoAnuncio, d.precoVenda, d.precoCusto, d.taxaMarketplace,
       d.aliquotaImposto, d.frete, lucro, percentual)
  }

  /** Applying the calculation to an existing listing, which the spread in the source
      allows: its metrics are overwritten from its inputs. */
  function Recompute(a: Ad): (r: Ad)
    ensures r.id == a.id && Inputs(r) == Inputs(a)
  {
    CalculateAdMetrics(a.id, Inputs(a))
  }

  /** The metrics are a function of the inputs alone: recomputing a computed listing
      gives it back unchanged. */
  lemma RecomputeIdempotent(id: string, d: AdDraft)
    ensures Recompute(CalculateAdMetrics(id, d)) == CalculateAdMetrics(id, d)
  {
  }

  /** Every unit of cost added takes exactly one unit off the gross profit. */
  lemma ProfitFallsWithCost(id: string, d: AdDraft, extra: real)
    ensures CalculateAdMetrics(id, d.(precoCusto := d.precoCusto + extra)).lucroBruto
            == CalculateAdMetrics(id, d).lucroBruto - extra
  {
  }

  // ---------------------------------------------------------------- aggregation

  /** The two listing figures that the summary adds up. */
  datatype Measure = LucroBruto | PercentualLucro

  function MeasureOf(a: Ad, m: Measure): real {
    match m
    case LucroBruto => a.lucroBruto
    case PercentualLucro => a.percentualLucro
  }

  /** Left-to-right sum of one figure over the listings, as `reduce` computes it. */
  function SumOf(ads: seq<Ad>, m: Measure): (r: real)
    ensures |ads| == 0 ==> r == 0.0
    ensures |ads| == 1 ==> r == MeasureOf(ads[0], m)
  {
    if |ads| == 0 then 0.0 else SumOf(ads[..|ads| - 1], m) + MeasureOf(ads[|ads| - 1], m)
  }

  /** The sum over two runs of listings is the sum of their sums. */
  lemma {:induction false} SumOfConcat(a: seq<Ad>, b: seq<Ad>, m: Measure)
    ensures SumOf(a + b, m) == SumOf(a, m) + SumOf(b, m)
  {
    if |b| == 0 {
      assert a + b == a;
    } else {
      assert (a + b)[..|a + b| - 1] == a + b[..|b| - 1];
      SumOfConcat(a, b[..|b| - 1], m);
    }
  }

  /** The portfolio summary: total gross profit, the plain (unweighted) mean of the
      margins and the number of listings; all zero when there are none. */
  function CalculateSummary(ads: seq<Ad>): (r: AdSummary)
    ensures |ads| == 0 ==> r == AdSummary(0.0, 0.0, 0)
    ensures r.totalAnuncios == |ads|
    ensures r.totalLucroBruto == SumOf(ads, LucroBruto)
    ensures r.mediaPercentualLucro * (|ads| as real) == SumOf(ads, PercentualLucro)
  {
    if |ads| == 0 then AdSummary(0.0, 0.0, 0)
    else AdSummary(SumOf(ads, LucroBruto), SumOf(ads, PercentualLucro) / (|ads| as real), |ads|)
  }

  lemma {:induction false} SumOfBounds(ads: seq<Ad>, m: Measure, lo: real, hi: real)
    requires forall i :: 0 <= i < |ads| ==> lo <= MeasureOf(ads[i], m) <= hi
    ensures lo * (|ads| as real) <= SumOf(ads, m) <= hi * (|ads| as real)
  {
    if |ads| > 0 {
      var init := ads[..|ads| - 1];
      var x := MeasureOf(ads[|ads| - 1], m);
      forall i | 0 <= i < |init|
        ensures lo <= MeasureOf(init[i], m) <= hi
      {
        assert init[i] == ads[i];
      }
      SumOfBounds(init, m, lo, hi);
      assert lo <= x <= hi;
      SumOfLast(ads, m);
      BoundsStep(SumOf(init, m), x, |init| as real, |ads| as real, lo, hi);
    }
  }

  /** The sum over a non-empty run is the sum over all but the last plus the last. */
  lemma SumOfLast(ads: seq<Ad>, m: Measure)
    requires |ads| > 0
    ensures SumOf(ads, m) == SumOf(ads[..|ads| - 1], m) + MeasureOf(ads[|ads| - 1], m)
    ensures |ads| as real == (|ads[..|ads| - 1]| as real) + 1.0
  {
  }

  /** Adding one more bounded figure to a bounded sum of k figures. */
  lemma BoundsStep(sum: real, x: real, k: real, n: real, lo: real, hi: real)
    requires lo * k <= sum <= hi * k && lo <= x <= hi && n == k + 1.0
    ensures lo * n <= sum + x <= hi * n
  {
  }

  /** Dividing bounds on a product by a positive factor. */
  lemma CancelPositiveFactor(x: real, n: real, lo: real, hi: real)
    requires n > 0.0 && lo * n <= x * n <= hi * n
    ensures lo <= x <= hi
  {
    assert (x - lo) * n >= 0.0;
    assert (hi - x) * n >= 0.0;
  }

  /** The mean margin lies between the smallest and the largest margin. */
  lemma MeanMarginBetween(ads: seq<Ad>, lo: real, hi: real)
    requires |ads| > 0
    requires forall i :: 0 <= i < |ads| ==> lo <= ads[i].percentualLucro <= hi
    ensures lo <= CalculateSummary(ads).mediaPercentualLucro <= hi
  {
    SumOfBounds(ads, PercentualLucro, lo, hi);
    var n := |ads| as real;
    var mean := CalculateSummary(ads).mediaPercentualLucro;
    assert mean * n == SumOf(ads, PercentualLucro);
    assert lo * n <= mean * n <= hi * n;
    CancelPositiveFactor(mean, n, lo, hi);
  }

  // ---------------------------------------------------------------- form conversion

  /** The listing inputs read from the form: the name trimmed, prices and shipping
      parsed with NaN read as 0, the fee read against the parsed sale price and the
      tax rate read as a percentage. */
  function ParseFormData(f: AdFormData): (r: AdDraft)
    ensures r.produtoAnuncio == Trim(f.produtoAnuncio)
    ensures r.precoVenda == ParseFloatOrZero(f.precoVenda)
    ensures r.precoCusto == ParseFloatOrZero(f.precoCusto)
    ensures r.taxaMarketplace == ParseMarketplaceFee(f.taxaMarketplace, r.precoVenda)
    ensures r.aliquotaImposto == ParsePercentage(f.aliquotaImposto)
    ensures r.frete == ParseFloatOrZero(f.frete)
  {
    var precoVenda := ParseFloatOrZero(f.precoVenda);
    AdDraft(
      Trim(f.produtoAnuncio),
      precoVenda,
      ParseFloatOrZero(f.precoCusto),
      ParseMarketplaceFee(f.taxaMarketplace, precoVenda),
      ParsePercentage(f.aliquotaImposto),
      ParseFloatOrZero(f.frete))
  }

  /** Whole-number prices typed without decoration are read back exactly. */
  lemma ParseFormDataWholeNumbers(name: string, venda: nat, custo: nat, frete: nat)
    requires Trim(name) == name
    ensures var d := ParseFormData(AdFormData(name, NatToString(venda), NatToString(custo), "", "", NatToString(frete)));
            d == AdDraft(name, venda as real, custo as real, 0.0, 0.0, frete as real)
  {
    ParseFloatNat(venda);
    ParseFloatNat(custo);
    ParseFloatNat(frete);
  }

  // ---------------------------------------------------------------- the two fee rules together

  /** The fee as the listing ends up charging it, from the form text: the amount the
      metrics of the parsed listing take off its profit. */
  function ChargedFee(f: AdFormData): (r: real)
    ensures var d := ParseFormData(f);
            && (d.taxaMarketplace < 1.0 ==> r == d.taxaMarketplace * d.precoVenda)
            && (d.taxaMarketplace >= 1.0 ==> r == d.taxaMarketplace)
  {
    var d := ParseFormData(f);
    FeeAmount(d.taxaMarketplace, d.precoVenda)
  }

  /** Whatever spelling the fee was typed in, the form turns it into money; when
      that stored amount is below 1 the metrics take it for a fraction and multiply
      it by the sale price a second time. */
  lemma StoredFeeScaledAgain(f: AdFormData)
    requires ParseFormData(f).taxaMarketplace < 1.0
    ensures ChargedFee(f) == ParseFormData(f).taxaMarketplace * ParseFloatOrZero(f.precoVenda)
  {
    var d := ParseFormData(f);
    var t, p := d.taxaMarketplace, d.precoVenda;
    assert p == ParseFloatOrZero(f.precoVenda);
    assert ChargedFee(f) == t * p;
  }

  /** A fee typed as a fraction n (at most 1) is read as `n * p`; below 1 it is
      charged as `n * p * p`. */
  lemma FeeScaledTwice(f: AdFormData, n: real, p: real)
    requires ParseFloat(f.taxaMarketplace) == Some(n) && ParseFloatOrZero(f.precoVenda) == p
    requires n <= 1.0 && n * p < 1.0
    ensures ChargedFee(f) == n * p * p
  {
    FeeOfNumber(f.taxaMarketplace, n, p);
    var d := ParseFormData(f);
    assert d.precoVenda == p;
    assert d.taxaMarketplace == FeeFromNumber(n, p);
    FractionFeeChargedTwice(n, p);
  }

  /** A fee typed as points n (above 1, at most 100) is read as `n / 100 * p`;
      below 1 it is charged as `n / 100 * p * p`. */
  lemma PointsFeeScaledTwice(f: AdFormData, n: real, p: real)
    requires ParseFloat(f.taxaMarketplace) == Some(n) && ParseFloatOrZero(f.precoVenda) == p
    requires 1.0 < n <= 100.0 && (n / 100.0) * p < 1.0
    ensures ChargedFee(f) == (n / 100.0) * p * p
  {
    FeeOfNumber(f.taxaMarketplace, n, p);
    var d := ParseFormData(f);
    assert d.precoVenda == p;
    assert d.taxaMarketplace == FeeFromNumber(n, p);
    PointsFeeChargedTwice(n, p);
  }

  lemma PointsFeeChargedTwice(n: real, p: real)
    requires 1.0 < n <= 100.0 && (n / 100.0) * p < 1.0
    ensures FeeAmount(FeeFromNumber(n, p), p) == (n / 100.0) * p * p
  {
  }

  /** A fee of "2" (2 percent) on a price of "10" is read as 0.2 and charged as 2. */
  lemma PointsFeeExample(name: string, custo: string, imposto: string, frete: string)
    ensures ChargedFee(AdFormData(name, "10", custo, "2", imposto, frete)) == 2.0
  {
    ReadTen();
    ReadTwo();
    PointsFeeScaledTwice(AdFormData(name, "10", custo, "2", imposto, frete), 2.0, 10.0);
  }

  /** The arithmetic of the double scaling: a fraction read as `n * p` and, being
      below 1, multiplied by `p` again. */
  lemma FractionFeeChargedTwice(n: real, p: real)
    requires n <= 1.0 && n * p < 1.0
    ensures FeeAmount(FeeFromNumber(n, p), p) == n * p * p
  {
  }

  /** A fee of "0.005" on a price of "100" is read as 0.5, whatever the other fields hold. */
  lemma SmallFeeRead(name: string, custo: string, imposto: string, frete: string)
    ensures var d := ParseFormData(AdFormData(name, "100", custo, "0.005", imposto, frete));
            d.precoVenda == 100.0 && d.taxaMarketplace == 0.5
  {
    ReadHundred();
    ReadHalfPercent();
  }

  lemma HalfPercentOfHundred()
    ensures ParseMarketplaceFee("0.005", 100.0) == 0.5
  {
    ReadHalfPercent();
  }

  /** ... and then charged as 50: half a percent of the price becomes half of it. */
  lemma SmallFeeChargedTwice(name: string, custo: string, imposto: string, frete: string)
    ensures ChargedFee(AdFormData(name, "100", custo, "0.005", imposto, frete)) == 50.0
  {
    SmallFeeRead(name, custo, imposto, frete);
    var d := ParseFormData(AdFormData(name, "100", custo, "0.005", imposto, frete));
    assert FeeAmount(d.taxaMarketplace, d.precoVenda) == 50.0;
  }

  /** The value 1 is a fraction (100 percent) to the reader of the form but a flat
      amount of 1 to the metrics. */
  lemma BoundaryAtOne(salePrice: real)
    ensures ParseMarketplaceFee("1", salePrice) == salePrice
    ensures FeeAmount(1.0, salePrice) == 1.0
  {
    ReadOne();
  }

  // ---------------------------------------------------------------- worked figures

  lemma PercentageExamples()
    ensures ParsePercentage("") == 0.0
    ensures ParsePercentage("15") == 0.15
    ensures ParsePercentage("0.15") == 0.15
  {
    ReadFifteen();
    ReadFifteenHundredths();
  }

  lemma FeeExamples()
    ensures ParseMarketplaceFee("0.15", 100.0) == 15.0
    ensures ParseMarketplaceFee("15", 100.0) == 15.0
    ensures ParseMarketplaceFee("150", 100.0) == 150.0
  {
    ReadFifteen();
    ReadFifteenHundredths();
    ReadHundredFifty();
  }

  /** The listing the form's placeholders suggest: sale price 89.90, cost 35, fee "0.15", tax "0.10" and
      shipping 12.50 give a fee of 13.485, a tax of 8.99 and a gross profit of 19.925. */
  lemma WorkedListingRates()
    ensures ParseMarketplaceFee("0.15", 89.9) == 13.485
    ensures ParsePercentage("0.10") == 0.1
  {
    ReadFifteenHundredths();
    ReadTenHundredths();
  }

  lemma WorkedListingMetrics(id: string, name: string)
    ensures CalculateAdMetrics(id, AdDraft(name, 89.9, 35.0, 13.485, 0.1, 12.5)).lucroBruto == 19.925
    ensures CalculateAdMetrics(id, AdDraft(name, 89.9, 35.0, 13.485, 0.1, 12.5)).percentualLucro == 19.925 / 89.9
  {
  }

  /** Two listings with profits 10 and -5 and margins 0.2 and -0.1 sum to 5 with a
      mean margin of 0.05. */
  lemma SummaryExample(a: Ad, b: Ad)
    requires a.lucroBruto == 10.0 && a.percentualLucro == 0.2
    requires b.lucroBruto == -5.0 && b.percentualLucro == -0.1
    ensures CalculateSummary([a, b]) == AdSummary(5.0, 0.05, 2)
  {
    assert [a, b][..1] == [a];
    assert [a][..0] == [];
    assert SumOf([a], LucroBruto) == 10.0;
    assert SumOf([a], PercentualLucro) == 0.2;
    assert SumOf([a, b], LucroBruto) == 5.0;
    assert SumOf([a, b], PercentualLucro) == 0.1;
  }
}

=== FILE: wrappers.dfy ===
/** Option, standing for "a value or nothing"; `None` also stands for JavaScript's NaN
    where a parse can fail. */
module Wrappers {

  datatype Option<+T> = None | Some(value: T) {

    /** The value, or `default` when there is none. */
    function GetOr(default: T): T {
      match this
      case Some(v) => v
      case None => default
    }
  }
}
